=== FILE: README.md ===
# FastoTV inner protocol — a Dafny model

This project models the control channel of the FastoTV client: the
"inner" TCP connection between a device and the FastoTV server. The model
has four parts.

- **Framing** (`InnerClient`, `inner_client.dfy`). Every message is a 4-byte
  unsigned length (`protocoled_size_t`) followed by exactly that many
  payload bytes. `WriteInner` and the three `Write` overloads build frames.
  `ReadDataSize`, `ReadMessage` and `ReadCommand` read them back from the
  bytes available. `BigEndian` (`big_endian.dfy`) holds the 4-byte integer
  field.
- **Connection handler** (`InnerTcpHandler`, `inner_tcp_handler.dfy`). The
  handler holds at most one inner connection, the 30-second ping timer of
  that connection, the pool of bandwidth-probe clients and a table of
  pending requests keyed by sequence id. Each received command goes to
  exactly one of the request, response or approve handlers. A response
  goes on to exactly one of the success or failed paths. Every transition
  is a pure function from a `Handler` value to a `Transition`: the new
  state, the commands to send, the requests resolved and any error.
  `HandlerProperties` (`handler_properties.dfy`) states the properties of
  whole runs of events.
- **`ChannelsInfo`** (`channels_info.dfy`): an append-only, ordered list of
  channels with equality.
- **`ResponceInfo`** (`responce_info.dfy`): a record of four strings with
  getters and equality.

`Commands` (`commands.dfy`) holds parsed commands. `Wrappers`
(`wrappers.dfy`) holds `Option` and `Result`. `Seqs` (`seqs.dfy`) holds the
subsequence relation and the associativity of concatenation.

## Assumptions

The model assumes the following behaviour beyond the declared signatures.

- The length prefix is big-endian (network byte order). The header fixes
  only its width: 4 bytes, unsigned.
- `WriteInner` refuses a payload longer than 2^32 - 1 bytes with
  `PayloadTooLarge`. It does not truncate the length. No smaller maximum
  is applied: the header declares none, so every 4-byte prefix is a valid
  length.
- A read that finds fewer bytes than it needs returns `ShortRead(needed,
  available)`. It never returns part of a message.
- `DataReceived` on the inner connection adds the new bytes to the bytes
  kept from earlier reads. It then reads every complete message, parses
  each one with a caller-supplied `parse` function (the command tokenizer
  is not part of this model) and dispatches them in order. A payload that
  does not parse is dropped. The incomplete tail is kept for the next read.
- Requests the client sends are recorded in the pending table under a
  fresh sequence id from one counter per handler. That counter is never
  reset, so no id is reused, even across reconnects.
- A response takes the success path exactly when its first argument is
  `"ok"`. Every other response, including one with no arguments, takes the
  failed path. A response or approve whose id is not pending is dropped.
- A chat post stays pending after a successful response, holding the
  answer. Its approve resolves it. Every other request is resolved by its
  response.
- A request from the server is answered with one response under the same
  id. The reply body depends on the verb and is not modelled.
- `Connect` first drops any current inner connection (reason `Reconnect`),
  so the handler never holds two. `Accepted` on the inner connection starts
  the ping timer.
- When the ping timer fires and the previous ping is still pending, the
  handler disconnects with `PingTimeout`. Otherwise it sends a new ping.
- `DisConnect` and the closing of the inner connection cancel every pending
  request exactly once, in increasing id order.
- The requests from `RequestServerInfo`, `RequestChannels`,
  `RequesRuntimeChannelInfo` and `PostMessageToChat` are sent only on a live
  connection, one whose ping timer runs. Between `Connect` and `Accepted`, and
  while disconnected, a request is refused with `NotConnected`. It is not
  queued.
- An approve resolves whichever pending request it names as succeeded. The
  answer is the payload its response stored. If no successful response came
  first, the answer is empty. This also holds for a request that needs no
  approve.
- A chat post that already holds an answer and receives a second `"ok"`
  response is resolved by that response, with the second payload. It does not
  wait for its approve.
- Channels are compared by their text. Two `Url` values are equal exactly when
  their serialized forms are equal.
- `Connect` receives its event loop as a call argument, so `PreLooped` needs
  no protocol state of its own.
- The ping timer is created when the inner connection is accepted, not when
  the loop starts. `ping_server_id_timer_` is a single member, so there is one
  timer, and it belongs to the current connection.
- The kinds of bandwidth server (`BandwidthHostType`) are kept as numbers:
  client/types.h, which names them, is not part of this model.
- Event-loop clients and timers are opaque numbers taken from a counter in
  the state, so a new one never equals a live one. Socket outcomes are
  boolean parameters.

## Model

| member | source | states |
|---|---|---|
| BigEndian.Encode | src/inner/inner_client.h:31 | A length written as a fixed-width big-endian field has that width and decodes back to the same length. |
| BigEndian.EncodeDecode | src/inner/inner_client.h:31 | Each 4-byte header encodes exactly one length, so re-encoding a decoded header gives the same bytes. |
| InnerClient.HeaderCapacity | src/inner/inner_client.h:31 | A 4-byte unsigned prefix holds exactly the lengths 0 to 2^32 - 1. |
| InnerClient.DeclaredSize | src/inner/inner_client.h:31 | The length a header states never exceeds 2^32 - 1. |
| InnerClient.WriteInner | src/inner/inner_client.h:44 | Fails exactly when the payload is too long for the prefix. Otherwise the frame is 4 + n bytes: a header stating n, then the payload unchanged. |
| InnerClient.Write | src/inner/inner_client.h:35-37 | Request, response and approve commands are all framed the same way. Writing fails only for oversized text, and reading the frame back gives exactly the text. |
| InnerClient.ReadDataSize | src/inner/inner_client.h:39 | Fails with a short-read error exactly when fewer than 4 bytes are available. Otherwise it returns the length whose encoding is the first 4 bytes, and leaves the rest. |
| InnerClient.ReadMessage | src/inner/inner_client.h:40 | Consumes exactly `size` bytes, or fails when fewer are available. Result and remainder rebuild the input. |
| InnerClient.ReadCommand | src/inner/inner_client.h:41 | Succeeds exactly when a whole frame is present. It returns the declared number of bytes after the header and leaves every byte behind the frame. |
| InnerClient.ReadCommandOfWrite | src/inner/inner_client.h:39-44 | Round trip: reading a written frame returns the payload and consumes exactly 4 + its length bytes. |
| InnerClient.ReadDataSizeOfWrite | src/inner/inner_client.h:39-44 | The size read from a written frame is the length of the payload written. |
| InnerClient.WriteOfReadCommand | src/inner/inner_client.h:39-44 | Inverse round trip: every frame that ReadCommand accepts is exactly what WriteInner produces for the returned payload. |
| InnerClient.ReadCommandOfPrefix | src/inner/inner_client.h:39-41 | Every proper prefix of a frame is rejected, so no partial message is returned. |
| InnerClient.TwoFramesInOrder | src/inner/inner_client.h:41-44 | Two frames written back to back are read by two calls in write order, and the second read ends where the second frame ends. |
| InnerClient.ReadCommandExtends | src/inner/inner_client.h:41 | Bytes arriving behind a complete frame do not change what is read. They only extend the remainder. |
| InnerClient.Deframe | src/inner/inner_client.h:41 | Repeated reads stop only at a tail that does not hold a complete frame. |
| InnerClient.DeframeConcat | src/inner/inner_client.h:41-44 | Any list of written frames reads back as the same payloads, in order, with nothing left over. |
| InnerClient.DeframeSplits | src/inner/inner_client.h:41-44 | Reading loses no byte: the buffer is exactly the messages read, written back as frames, followed by the unread tail. |
| InnerClient.DeframeChunks | src/inner/inner_client.h:41 | Reading `a` and then the leftover plus `b` gives the same messages, in order, and the same leftover as reading `a + b`. |
| InnerTcpHandler.Init | src/client/inner/inner_tcp_handler.h:53 | A new handler satisfies the invariant, with the given configuration, no connection, no timer, no probes and nothing pending. |
| InnerTcpHandler.CancelAll | src/client/inner/inner_tcp_handler.h:61 | Every pending request below the bound is cancelled exactly once, in increasing id order, and with its own operation. |
| InnerTcpHandler.DisConnect | src/client/inner/inner_tcp_handler.h:61 | Afterwards there is no connection, no timer, no buffered bytes and nothing pending. Probes and configuration are kept, and each previously pending request is resolved as cancelled exactly once. |
| InnerTcpHandler.Connect | src/client/inner/inner_tcp_handler.h:60 | On success the handler holds one new connection with a freshly issued id and no timer yet. Either way the receive buffer starts empty. On failure it holds none and reports ConnectFailed. Every request pending before is cancelled with reason Reconnect exactly once, in increasing id order. Probes, configuration and the sequence counter are kept, nothing else changes, and the invariant holds afterwards. |
| InnerTcpHandler.Accepted | src/client/inner/inner_tcp_handler.h:64 | Accepting the inner connection starts a ping timer with the 30-second period and changes nothing else. Any other client changes nothing. |
| InnerTcpHandler.RemoveProbe | src/client/inner/inner_tcp_handler.h:109 | The result holds no probe with the given id and keeps every other probe. It adds none. |
| InnerTcpHandler.RemoveProbeKeepsOrder | src/client/inner/inner_tcp_handler.h:109 | The probes kept by removal are a subsequence of the pool: they stay in their vector order. |
| InnerTcpHandler.CreateAndConnectTcpBandwidthClient | src/client/inner/inner_tcp_handler.h:78-81 | On success a new probe with a freshly issued id is appended to the pool, and nothing else changes: the inner connection, its timer, its receive buffer, the pending table, the sequence counter and the configuration are kept. On failure the result is the unchanged handler plus an error. The invariant holds afterwards. |
| InnerTcpHandler.Closed | src/client/inner/inner_tcp_handler.h:66 | Closing the inner connection is a DisConnect. Closing a probe removes only that probe, and the connection is unchanged. |
| InnerTcpHandler.ClosedKeepsProbeOrder | src/client/inner/inner_tcp_handler.h:66 | After any client closes, the probes left are a subsequence of the pool, in their vector order. |
| InnerTcpHandler.Submit | src/client/inner/inner_tcp_handler.h:56-59 | When not connected it fails with NotConnected and changes nothing. Otherwise it sends one request under a fresh sequence id and records that request as pending. |
| InnerTcpHandler.RequestServerInfo | src/client/inner/inner_tcp_handler.h:56 | On a live connection one ServerInfo request goes out under the next id and is recorded as pending with no answer. Nothing else in the handler changes. Otherwise it reports NotConnected and changes nothing. |
| InnerTcpHandler.RequestChannels | src/client/inner/inner_tcp_handler.h:57 | On a live connection one Channels request goes out under the next id and is recorded as pending with no answer. Nothing else in the handler changes. Otherwise it reports NotConnected and changes nothing. |
| InnerTcpHandler.RequesRuntimeChannelInfo | src/client/inner/inner_tcp_handler.h:58 | On a live connection one request for the runtime information of the given stream goes out under the next id and is recorded as pending. Nothing else in the handler changes. Otherwise it reports NotConnected and changes nothing. |
| InnerTcpHandler.PostMessageToChat | src/client/inner/inner_tcp_handler.h:59 | On a live connection the message is posted under the next id, and the post is recorded as pending and waiting for an approve. Nothing else in the handler changes. Otherwise it reports NotConnected and changes nothing. |
| InnerTcpHandler.TimerEmited | src/client/inner/inner_tcp_handler.h:70 | Only the live connection's ping timer acts. With a ping outstanding it disconnects with PingTimeout; otherwise it sends a ping, which is then outstanding. |
| InnerTcpHandler.HandleInnerRequestCommand | src/client/inner/inner_tcp_handler.h:83-86 | A server request is answered by one response with the same sequence id, and the state is unchanged. |
| InnerTcpHandler.HandleInnerSuccsessResponceCommand | src/client/inner/inner_tcp_handler.h:97-100 | A request that needs approval keeps waiting and stores the answer. Any other pending request is resolved as succeeded and leaves the table. Unknown ids are ignored. |
| InnerTcpHandler.HandleInnerFailedResponceCommand | src/client/inner/inner_tcp_handler.h:101-104 | The pending request is resolved as failed and leaves the table. Unknown ids are ignored. |
| InnerTcpHandler.HandleInnerResponceCommand | src/client/inner/inner_tcp_handler.h:87-90 | A response takes exactly one of the two paths. With state word "ok" it is the success handler applied to the remaining arguments; otherwise it is the failed handler applied to all arguments. An "ok" answer to a chat post still waiting keeps it pending and stores the payload; any other answer to a pending request resolves it once. |
| InnerTcpHandler.HandleInnerApproveCommand | src/client/inner/inner_tcp_handler.h:91-94 | An approve resolves the pending request once, with the answer its response stored, and removes it. Unknown ids are ignored. |
| InnerTcpHandler.Dispatch | src/client/inner/inner_tcp_handler.h:83-94 | Each command reaches exactly the handler of its phase. Requests produce exactly one reply with the command's id and touch no state. Responses go to the response handler, and approves go to the approve handler, which resolves a pending id once. At most one request is resolved, the one with the command's id. A pending request leaves the table only by being resolved. Stale ids are ignored, and every other pending entry is unchanged. |
| InnerTcpHandler.DispatchAll | src/client/inner/inner_tcp_handler.h:83-94 | No commands change nothing, and a single command is exactly its Dispatch. With DispatchAllAppend, a sequence is dispatched one command after another, in order. Only the pending table changes, and it only shrinks. |
| InnerTcpHandler.DataReceived | src/client/inner/inner_tcp_handler.h:67 | Data on the inner connection changes only the pending table and the receive buffer. If no complete frame has arrived, the bytes are only buffered. Data on any other client changes nothing. |
| InnerTcpHandler.DataReceivedKeepsTail | src/client/inner/inner_tcp_handler.h:67 | After data on the inner connection, the receive buffer is a suffix of the old buffer plus the new bytes and holds no complete frame. |
| InnerTcpHandler.DataReceivedOfFrames | src/client/inner/inner_tcp_handler.h:67 | Whole frames arriving on the inner connection with nothing buffered are dispatched as the commands they parse to, in order, and nothing stays buffered. |
| InnerTcpHandler.Parsed | src/client/inner/inner_tcp_handler.h:67 | Received messages become commands in arrival order. A message that parses yields exactly its command, and one that does not parse yields nothing. With HandlerProperties.ParsedAppend, a list of messages is handled one message after another. |
| HandlerProperties.ParsedAppend | src/client/inner/inner_tcp_handler.h:67 | Parsing messages `a` then `b` gives the commands of `a` followed by those of `b`. One message's result never depends on the others. |
| InnerTcpHandler.DataReceivedOfOneFrame | src/client/inner/inner_tcp_handler.h:67 | One whole frame arriving on the inner connection with nothing buffered is dispatched as exactly the command its payload parses to. |
| HandlerProperties.StepKeepsValid | src/client/inner/inner_tcp_handler.h:108-110 | Every event keeps the invariant. The timer exists only with a connection and has the 30-second period. The connection is never a probe, and probe ids are distinct. |
| HandlerProperties.RunKeepsValidAndConfig | src/client/inner/inner_tcp_handler.h:112 | Over any run the invariant holds and the start configuration is never changed. |
| HandlerProperties.RemoveProbeKeepsDistinct | src/client/inner/inner_tcp_handler.h:109 | Removing a probe keeps the remaining probe ids distinct. |
| HandlerProperties.ProbeCreatedThenClosed | src/client/inner/inner_tcp_handler.h:78-81 | A probe created and then closed leaves the pool as it was. The connection, timer, receive buffer and pending table are unchanged: only the handle counter has moved. |
| HandlerProperties.RequestThenResponce | src/client/inner/inner_tcp_handler.h:87-100 | A request that needs no approval is resolved by a successful response with the response's payload, and the pending table returns to its earlier state. |
| HandlerProperties.ChatPostThenResponceThenApprove | src/client/inner/inner_tcp_handler.h:91-100 | A chat post stays pending after its successful response. It is resolved once, by the approve, with the response's payload. |
| HandlerProperties.AnswersCommute | src/client/inner/inner_tcp_handler.h:83-94 | Answers to different ids give the same state in either arrival order, and each resolves its own request identically. |
| HandlerProperties.UnansweredPingDisconnects | src/client/inner/inner_tcp_handler.h:70 | If a ping is still unanswered at the next tick, the connection and timer are dropped and the ping is cancelled as a ping timeout. |
| HandlerProperties.DispatchAllRetires | src/client/inner/inner_tcp_handler.h:83-94 | Commands resolve only requests that were pending, each at most once, and those requests are no longer pending afterwards. Every pending request that leaves the table is resolved. |
| HandlerProperties.StepRetires | src/client/inner/inner_tcp_handler.h:56-94 | Each event resolves only requests pending before it, each at most once. Every request pending before it or issued by it that leaves the table is resolved. New pending ids come only from the counter, which never decreases. |
| HandlerProperties.RunResolvesOnce | src/client/inner/inner_tcp_handler.h:56-104 | Over any run each request pending at the start or issued during the run ends the run either still pending or resolved exactly once: no request is resolved twice, even when a late answer arrives, and none leaves the table unresolved. |
| HandlerProperties.DispatchAllAppend | src/client/inner/inner_tcp_handler.h:83-94 | Dispatching `a + b` is dispatching `a` and then `b` from the state `a` leaves, with sends and resolutions concatenated in order. |
| HandlerProperties.DataReceivedChunks | src/client/inner/inner_tcp_handler.h:67 | Bytes received in two reads are handled exactly as in one read: the same commands are sent and resolved, in the same order, and the final state is the same. |
| ChannelsInfo.Empty | src/channels_info.h:34 | The default-constructed list is empty and has size 0. |
| ChannelsInfo.IsEmpty | src/channels_info.h:43-44 | IsEmpty holds exactly when Size is 0. |
| ChannelsInfo.AddChannel | src/channels_info.h:40 | Size grows by one and the new channel is last. Earlier channels keep their positions. |
| ChannelsInfo.SameChannels | src/channels_info.h:33 | Element-by-element vector comparison holds exactly for equal channel lists. |
| ChannelsInfo.Equals | src/channels_info.h:46 | Equals holds exactly when GetChannels returns the same list for both. |
| ChannelsInfo.Eq | src/channels_info.h:52-54 | `==` is Equals, and it holds exactly for equal values. |
| ChannelsInfo.Ne | src/channels_info.h:56-58 | `!=` is the negation of Equals. |
| ChannelsInfo.AddChannelsInOrder | src/channels_info.h:40-41 | Channels added one by one come back from GetChannels after the earlier ones, in insertion order, and Size counts them. |
| ChannelsInfo.BuiltListHoldsChannels | src/channels_info.h:34-44 | A list built from the default constructor holds exactly the channels added, in order. It is empty iff none were added. |
| ChannelsInfo.EqualsIsEquivalence | src/channels_info.h:46 | Equals is reflexive, symmetric and transitive, and adding the same channel to two equal lists keeps them equal. |
| ChannelsInfo.AddChannelCancels | src/channels_info.h:40-46 | Two lists that are equal after one addition each were equal before, and received the same channel. |
| ResponceInfo.Default | src/server/responce_info.h:34 | The default record has four empty fields. |
| ResponceInfo.Make | src/server/responce_info.h:35-47 | Each getter returns the matching constructor argument unchanged. |
| ResponceInfo.Equals | src/server/responce_info.h:49 | Field-by-field comparison holds exactly for equal records. |
| ResponceInfo.Eq | src/server/responce_info.h:58-60 | `==` is Equals: it holds exactly for equal records and is symmetric. |
| ResponceInfo.Ne | src/server/responce_info.h:62-64 | `!=` is the negation of `==`: it holds exactly when the records differ in at least one of the four fields. |
| ResponceInfo.FourFieldsDetermineRecord | src/server/responce_info.h:52-55 | The four fields determine the record: rebuilding it from its getters gives it back. Records compare equal exactly when their constructor arguments are equal. |

## Left out

- src/client/core/video_state.h: the ffmpeg playback pipeline. It relies on threads, floating-point clocks and foreign decoder types.
- `PreLooped`, `Moved`, `PostLooped`, `ChildStatusChanged` and the child-process `Accepted`/`Moved` overloads are not modelled. Under the assumptions above they only wire the handler to its event loop.
- InnerTcpHandler.HandleInnerSuccsessResponceCommand: the `common::ErrnoError` it returns is not modelled. In the model it never fails: a response for an unknown id is dropped, and the reply body that could fail to parse is opaque.
- InnerTcpHandler.HandleInnerFailedResponceCommand: the `common::ErrnoError` it returns is not modelled, for the same reasons. In the model it never fails.
- `DataReadyToWrite` and real socket reads and writes: outbound commands are returned in `Transition.outbound` and are not queued or written. `TimerEmited` and `Submit` assume that every write succeeds.
- The command tokenizer, inner/inner_server_command_seq_parser.h, is not part of this model. Commands arrive parsed, and `DataReceived` takes the parser as a parameter.
- The text form of outgoing commands and the per-verb reply bodies: commands/commands.h is not part of this model.
- `Serialize`/`DeSerialize` of `ChannelsInfo` and `ResponceInfo`, and `ParserResponceResponceCommand`: the JSON library is not visible, so payloads stay opaque strings.
- `current_bandwidth_` and the bandwidth measurement: these depend on time and throughput. Only membership in the probe pool is modelled, and data on a probe changes nothing.
- Request deadlines other than the ping: there is no clock in the model. Only the ping timer detects an unanswered request.
- Sequence-id wrap-around: ids are unbounded naturals. The 32-bit wrap is left out because the pending table never comes close to 2^32 entries.
- Thread affinity ("should be execute in network thread"): the model is single-threaded.
- The destructor and memory ownership of clients.

=== FILE: big_endian.dfy ===
/** Unsigned integers written as a fixed number of bytes, most significant
    byte first (network byte order). */
module BigEndian {

  newtype byte = x: int | 0 <= x < 256

  /** 256^k: the number of values a k-byte field can hold. */
  function Pow256(k: nat): (p: nat)
    ensures p >= 1
  {
    if k == 0 then 1 else 256 * Pow256(k - 1)
  }

  /** The value of `bs` read as an unsigned big-endian integer. */
  function Decode(bs: seq<byte>): (n: nat)
    ensures n < Pow256(|bs|)
  {
    if |bs| == 0 then 0
    else
      var high := Decode(bs[..|bs| - 1]);
      assert high * 256 + 255 < Pow256(|bs| - 1) * 256 by {
        assert high + 1 <= Pow256(|bs| - 1);
      }
      high * 256 + bs[|bs| - 1] as int
  }

  /** The `width`-byte big-endian field holding `n`; it decodes back to `n`. */
  function Encode(n: nat, width: nat): (bs: seq<byte>)
    requires n < Pow256(width)
    ensures |bs| == width
    ensures Decode(bs) == n
  {
    if width == 0 then []
    else
      var high := Encode(n / 256, width - 1);
      var bs := high + [(n % 256) as byte];
      assert bs[..width - 1] == high;
      bs
  }

  /** Reading a field and writing it back at the same width gives the same bytes:
      every byte string is the encoding of exactly one value. */
  lemma {:induction false} EncodeDecode(bs: seq<byte>)
    ensures Encode(Decode(bs), |bs|) == bs
  {
    if |bs| > 0 {
      var k := |bs| - 1;
      var high := Decode(bs[..k]);
      var n := Decode(bs);
      assert n == high * 256 + bs[k] as int;
      assert n / 256 == high && n % 256 == bs[k] as int;
      EncodeDecode(bs[..k]);
      assert bs == bs[..k] + [bs[k]];
    }
  }

  /** Equal fields of equal width hold equal values and vice versa. */
  lemma DecodeInjective(a: seq<byte>, b: seq<byte>)
    requires |a| == |b|
    ensures Decode(a) == Decode(b) <==> a == b
  {
    EncodeDecode(a);
    EncodeDecode(b);
  }
}

=== FILE: channels_info.dfy ===
/** `ChannelsInfo`: the channel list the server sends, an append-only vector
    of channel URLs kept in insertion order. */
module ChannelsInfo {

  /** A channel entry. url.h is not part of this model; a channel is kept as
      its serialized form and two channels are equal when those agree. */
  datatype Url = Url(text: string)

  datatype ChannelsInfo = ChannelsInfo(channels: seq<Url>)

  /** The default constructor: no channels. */
  function Empty(): (c: ChannelsInfo)
    ensures Size(c) == 0 && IsEmpty(c) && GetChannels(c) == []
  {
    ChannelsInfo([])
  }

  function GetChannels(c: ChannelsInfo): (urls: seq<Url>)
  {
    c.channels
  }

  function Size(c: ChannelsInfo): (n: nat)
  {
    |c.channels|
  }

  function IsEmpty(c: ChannelsInfo): (b: bool)
    ensures b <==> Size(c) == 0
  {
    c.channels == []
  }

  /** Appends `channel` after every channel already held, which keep their
      positions. */
  function AddChannel(c: ChannelsInfo, channel: Url): (r: ChannelsInfo)
    ensures Size(r) == Size(c) + 1 && !IsEmpty(r)
    ensures GetChannels(r)[Size(c)] == channel
    ensures GetChannels(r)[..Size(c)] == GetChannels(c)
  {
    ChannelsInfo(c.channels + [channel])
  }

  /** Vector equality: the same length and the same channel at each index. */
  function SameChannels(xs: seq<Url>, ys: seq<Url>): (b: bool)
    ensures b <==> xs == ys
  {
    if |xs| != |ys| then false
    else if |xs| == 0 then true
    else
      var b := xs[0] == ys[0] && SameChannels(xs[1..], ys[1..]);
      assert xs == [xs[0]] + xs[1..] && ys == [ys[0]] + ys[1..];
      b
  }

  function Equals(c: ChannelsInfo, other: ChannelsInfo): (b: bool)
    ensures b <==> GetChannels(c) == GetChannels(other)
  {
    SameChannels(c.channels, other.channels)
  }

  /** `operator==`, defined through `Equals`. */
  function Eq(lhs: ChannelsInfo, rhs: ChannelsInfo): (b: bool)
    ensures b <==> lhs == rhs
  {
    Equals(lhs, rhs)
  }

  /** `operator!=`, the negation of `operator==`. */
  function Ne(x: ChannelsInfo, y: ChannelsInfo): (b: bool)
    ensures b <==> !Equals(x, y)
    ensures b <==> x != y
  {
    !Eq(x, y)
  }

  /** Adds `channels` one by one, in order. */
  function AddChannels(c: ChannelsInfo, channels: seq<Url>): (d: ChannelsInfo)
    decreases |channels|
  {
    if |channels| == 0 then c
    else AddChannels(AddChannel(c, channels[0]), channels[1..])
  }

  /** Channels added one at a time come back from `GetChannels` after the
      earlier ones, in the order they were added. */
  lemma {:induction false} AddChannelsInOrder(c: ChannelsInfo, channels: seq<Url>)
    ensures GetChannels(AddChannels(c, channels)) == GetChannels(c) + channels
    ensures Size(AddChannels(c, channels)) == Size(c) + |channels|
    decreases |channels|
  {
    if |channels| == 0 {
      assert GetChannels(c) + channels == GetChannels(c);
    } else {
      var next := AddChannel(c, channels[0]);
      assert GetChannels(next) == GetChannels(c) + [channels[0]];
      AddChannelsInOrder(next, channels[1..]);
      assert GetChannels(c) + [channels[0]] + channels[1..] == GetChannels(c) + channels;
    }
  }

  /** A list built from the default constructor holds exactly the channels
      added, in insertion order. */
  lemma BuiltListHoldsChannels(channels: seq<Url>)
    ensures GetChannels(AddChannels(Empty(), channels)) == channels
    ensures IsEmpty(AddChannels(Empty(), channels)) <==> |channels| == 0
  {
    AddChannelsInOrder(Empty(), channels);
    assert [] + channels == channels;
  }

  /** `Equals` is an equivalence, and adding the same channel to equal lists
      gives equal lists. */
  lemma EqualsIsEquivalence(a: ChannelsInfo, b: ChannelsInfo, c: ChannelsInfo, u: Url)
    ensures Equals(a, a)
    ensures Equals(a, b) ==> Equals(b, a)
    ensures Equals(a, b) && Equals(b, c) ==> Equals(a, c)
    ensures Equals(a, b) ==> Equals(AddChannel(a, u), AddChannel(b, u))
  {
  }

  /** Two lists that compare equal after one addition each were equal before
      it and received the same channel. */
  lemma AddChannelCancels(a: ChannelsInfo, b: ChannelsInfo, u: Url, v: Url)
    requires Equals(AddChannel(a, u), AddChannel(b, v))
    ensures Equals(a, b) && u == v
  {
    var ra := AddChannel(a, u);
    var rb := AddChannel(b, v);
    assert GetChannels(a) == GetChannels(ra)[..Size(a)];
    assert GetChannels(b) == GetChannels(rb)[..Size(b)];
  }
}

=== FILE: commands.dfy ===
/** Parsed inner-protocol commands. The command-text tokenizer is not part of
    this model: a command arrives already split into its phase, its sequence
    id and its arguments. */
module Commands {

  /** `cmd_seq_t`: the id that ties a response or approve to its request. */
  type SeqId = nat

  /** The three phases of the three-way handshake. */
  datatype Kind = Request | Response | Approve

  datatype Command = Command(kind: Kind, id: SeqId, args: seq<string>)

  /** The state word that opens the arguments of a successful response. */
  const SuccessState: string := "ok"

  /** A response takes the success path exactly when its first argument is
      the success state word; every other response, one without arguments
      included, takes the failed path. */
  predicate IsSuccessResponce(args: seq<string>)
  {
    |args| > 0 && args[0] == SuccessState
  }

  type StreamId = string

  /** A chat message, kept as its serialized body. */
  datatype ChatMessage = ChatMessage(body: string)

  /** The requests the client originates: the keepalive ping and the four
      public operations. */
  datatype Operation =
    | Ping
    | ServerInfo
    | Channels
    | RuntimeChannelInfo(sid: StreamId)
    | PostChatMessage(message: ChatMessage)

  /** Operations whose successful response is only final once the server
      approves it; every other operation ends at its response. */
  predicate RequiresApprove(op: Operation)
  {
    op.PostChatMessage?
  }
}

=== FILE: handler_properties.dfy ===
/** Properties of `InnerTcpHandler` over single events and whole runs of
    events: the invariant is kept, the configuration never changes, every
    request is resolved at most once, answers are matched by sequence id
    rather than arrival order, and received bytes are handled the same way
    however the stream is split into reads. */
module HandlerProperties {
  import opened Wrappers
  import opened BigEndian
  import opened Commands
  import InnerClient
  import Seqs
  import opened InnerTcpHandler

  /** Everything that can happen to the handler: its public operations and
      the event-loop callbacks. */
  datatype Event =
    | ConnectEvent(connected: bool)
    | DisConnectEvent(why: CloseReason)
    | AcceptedEvent(client: ClientId)
    | ClosedEvent(client: ClientId)
    | TimerEvent(timer: TimerId)
    | DataEvent(client: ClientId, chunk: seq<byte>)
    | RequestEvent(op: Operation)
    | ProbeEvent(host: HostAndPort, hostType: BandwidthHostType, connected: bool)

  function Step(h: Handler, parse: seq<byte> -> Option<Command>, e: Event): (t: Transition)
  {
    match e
    case ConnectEvent(connected) => Connect(h, connected)
    case DisConnectEvent(why) => DisConnect(h, why)
    case AcceptedEvent(client) => Accepted(h, client)
    case ClosedEvent(client) => Closed(h, client)
    case TimerEvent(timer) => TimerEmited(h, timer)
    case DataEvent(client, chunk) => DataReceived(h, client, chunk, parse)
    case RequestEvent(op) => Submit(h, op)
    case ProbeEvent(host, hostType, connected) =>
      var r := CreateAndConnectTcpBandwidthClient(h, host, hostType, connected);
      Transition(r.0, [], [], if r.1.Failure? then Some(r.1.error) else None)
  }

  /** Applies `events` in order, collecting what each step sends and resolves. */
  function Run(h: Handler, parse: seq<byte> -> Option<Command>, events: seq<Event>): (t: Transition)
    decreases |events|
  {
    if |events| == 0 then Quiet(h)
    else
      var first := Step(h, parse, events[0]);
      Then(first, Run(first.state, parse, events[1..]))
  }

  // ---------------------------------------------------------------------
  // The invariant and the configuration

  lemma DispatchKeepsValid(h: Handler, c: Command)
    requires Valid(h)
    ensures Valid(Dispatch(h, c).state)
  {
    var t := Dispatch(h, c);
    if h.timer.None? {
      assert t.state.pending.Keys <= h.pending.Keys;
      assert t.state.pending == map[];
    }
  }

  lemma {:induction false} DispatchAllKeepsValid(h: Handler, cmds: seq<Command>)
    requires Valid(h)
    ensures Valid(DispatchAll(h, cmds).state)
    decreases |cmds|
  {
    if |cmds| > 0 {
      DispatchKeepsValid(h, cmds[0]);
      DispatchAllKeepsValid(Dispatch(h, cmds[0]).state, cmds[1..]);
    }
  }

  /** Removing a probe keeps the remaining probe ids distinct. */
  lemma {:induction false} RemoveProbeKeepsDistinct(probes: seq<Probe>, c: ClientId)
    requires ProbesDistinct(probes)
    ensures ProbesDistinct(RemoveProbe(probes, c))
  {
    if |probes| > 0 {
      RemoveProbeKeepsDistinct(probes[1..], c);
      if probes[0].client != c {
        var rest := RemoveProbe(probes[1..], c);
        forall q | q in rest
          ensures q.client != probes[0].client
        {
          var m :| 0 <= m < |probes[1..]| && probes[1..][m] == q;
          assert probes[m + 1] == q;
        }
        ConsDistinct(probes[0], rest);
      }
    }
  }

  /** Putting a probe with a new id in front keeps the ids distinct. */
  lemma ConsDistinct(p: Probe, rest: seq<Probe>)
    requires ProbesDistinct(rest)
    requires forall q :: q in rest ==> q.client != p.client
    ensures ProbesDistinct([p] + rest)
  {
    var r := [p] + rest;
    forall i, j | 0 <= i < j < |r|
      ensures r[i].client != r[j].client
    {
      assert r[j] == rest[j - 1] && r[j] in rest;
      if i > 0 {
        assert r[i] == rest[i - 1];
      }
    }
  }

  /** Every event keeps the handler invariant. */
  lemma StepKeepsValid(h: Handler, parse: seq<byte> -> Option<Command>, e: Event)
    requires Valid(h)
    ensures Valid(Step(h, parse, e).state)
  {
    match e
    case ConnectEvent(connected) =>
    case DisConnectEvent(why) => DisConnectKeepsValid(h, why);
    case AcceptedEvent(client) =>
    case ClosedEvent(client) => ClosedKeepsValid(h, client);
    case TimerEvent(timer) => TimerKeepsValid(h, timer);
    case DataEvent(client, chunk) => DataKeepsValid(h, client, chunk, parse);
    case RequestEvent(op) => SubmitKeepsValid(h, op);
    case ProbeEvent(host, hostType, connected) =>
  }

  lemma DisConnectKeepsValid(h: Handler, why: CloseReason)
    requires Valid(h)
    ensures Valid(DisConnect(h, why).state)
  {
  }

  lemma SubmitKeepsValid(h: Handler, op: Operation)
    requires Valid(h)
    ensures Valid(Submit(h, op).state)
  {
  }

  lemma TimerKeepsValid(h: Handler, id: TimerId)
    requires Valid(h)
    ensures Valid(TimerEmited(h, id).state)
  {
    if IsConnected(h) && h.timer.value.id == id {
      if PingOutstanding(h) {
        DisConnectKeepsValid(h, PingTimeout);
      } else {
        SubmitKeepsValid(h, Ping);
      }
    }
  }

  lemma ClosedKeepsValid(h: Handler, client: ClientId)
    requires Valid(h)
    ensures Valid(Closed(h, client).state)
  {
    if h.connection == Some(client) {
      DisConnectKeepsValid(h, ClosedByPeer);
    } else if HasProbe(h.probes, client) {
      RemoveProbeKeepsDistinct(h.probes, client);
    }
  }

  lemma DataKeepsValid(h: Handler, client: ClientId, chunk: seq<byte>, parse: seq<byte> -> Option<Command>)
    requires Valid(h)
    ensures Valid(DataReceived(h, client, chunk, parse).state)
  {
    if h.connection == Some(client) {
      var frames := InnerClient.Deframe(h.inbox + chunk);
      DispatchAllKeepsValid(h.(inbox := frames.rest), Parsed(frames.payloads, parse));
    }
  }

  /** A run of any length keeps the invariant and never changes the
      configuration the handler was built with. */
  lemma {:induction false} RunKeepsValidAndConfig(h: Handler, parse: seq<byte> -> Option<Command>, events: seq<Event>)
    requires Valid(h)
    ensures Valid(Run(h, parse, events).state)
    ensures Run(h, parse, events).state.config == h.config
    decreases |events|
  {
    if |events| > 0 {
      var first := Step(h, parse, events[0]);
      StepKeepsValid(h, parse, events[0]);
      StepKeepsConfig(h, parse, events[0]);
      RunKeepsValidAndConfig(first.state, parse, events[1..]);
    }
  }

  lemma StepKeepsConfig(h: Handler, parse: seq<byte> -> Option<Command>, e: Event)
    ensures Step(h, parse, e).state.config == h.config
  {
    match e
    case DataEvent(client, chunk) =>
      if h.connection == Some(client) {
        var frames := InnerClient.Deframe(h.inbox + chunk);
        assert DispatchAll(h.(inbox := frames.rest), Parsed(frames.payloads, parse)).state.config == h.config;
      }
    case _ =>
  }

  // ---------------------------------------------------------------------
  // Bandwidth probes

  lemma {:induction false} RemoveAbsentAppended(probes: seq<Probe>, p: Probe)
    requires !HasProbe(probes, p.client)
    ensures RemoveProbe(probes + [p], p.client) == probes
  {
    if |probes| == 0 {
      assert [] + [p] == [p];
    } else {
      assert (probes + [p])[1..] == probes[1..] + [p];
      forall i | 0 <= i < |probes[1..]|
        ensures probes[1..][i].client != p.client
      {
        assert probes[1..][i] == probes[i + 1];
      }
      assert probes[0].client != p.client;
      RemoveAbsentAppended(probes[1..], p);
      assert [probes[0]] + probes[1..] == probes;
    }
  }

  /** A probe created and then closed leaves the pool as it was before, and
      neither step touches the inner connection, its timer, its receive
      buffer or the pending requests: only the handle counter has moved. */
  lemma ProbeCreatedThenClosed(h: Handler, host: HostAndPort, hostType: BandwidthHostType)
    requires Valid(h)
    ensures
      var created := CreateAndConnectTcpBandwidthClient(h, host, hostType, true);
      var closed := Closed(created.0, created.1.value);
      && closed.state.probes == h.probes
      && closed.state.connection == h.connection
      && closed.state.timer == h.timer
      && closed.state.pending == h.pending
      && closed.state.inbox == h.inbox
      && closed.state == h.(nextHandle := closed.state.nextHandle)
  {
    var created := CreateAndConnectTcpBandwidthClient(h, host, hostType, true);
    var c := created.1.value;
    assert created.0.probes[|h.probes|].client == c;
    RemoveAbsentAppended(h.probes, Probe(c, host, hostType));
  }

  // ---------------------------------------------------------------------
  // Requests and their answers

  /** A request that needs no approve is resolved by a successful response
      under its id with that response's payload, and the pending table is
      back to what it was. */
  lemma RequestThenResponce(h: Handler, op: Operation, payload: seq<string>)
    requires Valid(h) && IsConnected(h) && !RequiresApprove(op)
    ensures
      var id := h.nextSeq;
      var sent := Submit(h, op);
      var answered := Dispatch(sent.state, Command(Response, id, [SuccessState] + payload));
      && sent.outbound == [SendRequest(id, op)]
      && answered.resolved == [Resolution(id, op, Succeeded(payload))]
      && answered.state.pending == h.pending
  {
    var id := h.nextSeq;
    var sent := Submit(h, op);
    var args := [SuccessState] + payload;
    assert IsSuccessResponce(args) && args[1..] == payload;
    assert sent.state.pending - {id} == h.pending;
  }

  /** A chat post stays pending after its successful response and is
      resolved once, by the approve, with the response's payload. */
  lemma ChatPostThenResponceThenApprove(h: Handler, message: ChatMessage, payload: seq<string>, approveArgs: seq<string>)
    requires Valid(h) && IsConnected(h)
    ensures
      var id := h.nextSeq;
      var op := PostChatMessage(message);
      var sent := PostMessageToChat(h, message);
      var answered := Dispatch(sent.state, Command(Response, id, [SuccessState] + payload));
      var approved := Dispatch(answered.state, Command(Approve, id, approveArgs));
      && sent.outbound == [SendRequest(id, op)]
      && answered.resolved == [] && id in answered.state.pending
      && approved.resolved == [Resolution(id, op, Succeeded(payload))]
      && approved.state.pending == h.pending
  {
    var id := h.nextSeq;
    var sent := PostMessageToChat(h, message);
    var args := [SuccessState] + payload;
    assert IsSuccessResponce(args) && args[1..] == payload;
    var answered := Dispatch(sent.state, Command(Response, id, args));
    assert answered.state.pending - {id} == h.pending;
  }

  /** Answers are matched by sequence id, not by arrival slot: two answers
      for different ids give the same final state in either arrival order,
      and each resolves the same request with the same outcome. */
  lemma AnswersCommute(h: Handler, c1: Command, c2: Command)
    requires c1.kind != Request && c2.kind != Request && c1.id != c2.id
    ensures
      var a1 := Dispatch(h, c1);
      var a2 := Dispatch(a1.state, c2);
      var b1 := Dispatch(h, c2);
      var b2 := Dispatch(b1.state, c1);
      && a2.state == b2.state
      && a1.resolved == b2.resolved
      && a2.resolved == b1.resolved
  {
    AnswerIgnoresOtherIds(h, Dispatch(h, c2).state, c1);
    AnswerIgnoresOtherIds(h, Dispatch(h, c1).state, c2);
    var a2 := Dispatch(Dispatch(h, c1).state, c2);
    var b2 := Dispatch(Dispatch(h, c2).state, c1);
    assert a2.state.pending == b2.state.pending by {
      forall k
        ensures (k in a2.state.pending <==> k in b2.state.pending)
        ensures k in a2.state.pending ==> a2.state.pending[k] == b2.state.pending[k]
      {
      }
    }
  }

  /** An answer depends only on the pending entry under its own id: on two
      states that agree on that entry it resolves the same requests and
      leaves the same entry. */
  lemma AnswerIgnoresOtherIds(h: Handler, g: Handler, c: Command)
    requires c.kind != Request
    requires g == h.(pending := g.pending)
    requires c.id in h.pending <==> c.id in g.pending
    requires c.id in h.pending ==> h.pending[c.id] == g.pending[c.id]
    ensures Dispatch(h, c).resolved == Dispatch(g, c).resolved
    ensures c.id in Dispatch(h, c).state.pending <==> c.id in Dispatch(g, c).state.pending
    ensures c.id in Dispatch(h, c).state.pending ==>
              Dispatch(h, c).state.pending[c.id] == Dispatch(g, c).state.pending[c.id]
  {
  }

  /** A ping left unanswered until the next tick drops the connection and
      cancels the ping as a ping timeout. */
  lemma UnansweredPingDisconnects(h: Handler)
    requires Valid(h) && IsConnected(h) && !PingOutstanding(h)
    ensures
      var id := h.timer.value.id;
      var first := TimerEmited(h, id);
      var second := TimerEmited(first.state, id);
      && first.outbound == [SendRequest(h.nextSeq, Ping)]
      && second.state.connection.None? && second.state.timer.None?
      && Resolution(h.nextSeq, Ping, Cancelled(PingTimeout)) in second.resolved
  {
    var id := h.timer.value.id;
    var first := TimerEmited(h, id);
    assert Valid(first.state);
    var second := TimerEmited(first.state, id);
    assert h.nextSeq in first.state.pending;
    var i :| 0 <= i < |second.resolved| && second.resolved[i].id == h.nextSeq;
    assert second.resolved[i] == Resolution(h.nextSeq, Ping, Cancelled(PingTimeout));
  }

  // ---------------------------------------------------------------------
  // Each request is resolved exactly once

  /** The requests `t` resolves are distinct, were pending in `pending`, and
      are no longer pending afterwards. */
  ghost predicate RetiresFrom(pending: map<SeqId, Pending>, t: Transition)
  {
    && (forall i, j :: 0 <= i < j < |t.resolved| ==> t.resolved[i].id != t.resolved[j].id)
    && (forall i :: 0 <= i < |t.resolved| ==>
          t.resolved[i].id in pending && t.resolved[i].id !in t.state.pending)
  }

  /** No request is lost: every one pending in `pending`, or issued by `t`
      from id `from` on, that is not pending after `t` was resolved by `t`. */
  ghost predicate NoLeak(pending: map<SeqId, Pending>, from: SeqId, t: Transition)
  {
    forall k :: (k in pending || from <= k < t.state.nextSeq) && k !in t.state.pending ==>
      exists i :: 0 <= i < |t.resolved| && t.resolved[i].id == k
  }

  lemma {:induction false} DispatchAllRetires(h: Handler, cmds: seq<Command>)
    ensures RetiresFrom(h.pending, DispatchAll(h, cmds))
    ensures NoLeak(h.pending, h.nextSeq, DispatchAll(h, cmds))
    decreases |cmds|
  {
    if |cmds| > 0 {
      var first := Dispatch(h, cmds[0]);
      var rest := DispatchAll(first.state, cmds[1..]);
      DispatchAllRetires(first.state, cmds[1..]);
      var t := DispatchAll(h, cmds);
      assert t.resolved == first.resolved + rest.resolved;
      forall k | (k in h.pending || h.nextSeq <= k < t.state.nextSeq) && k !in t.state.pending
        ensures exists i :: 0 <= i < |t.resolved| && t.resolved[i].id == k
      {
        if k in first.state.pending {
          var i :| 0 <= i < |rest.resolved| && rest.resolved[i].id == k;
          assert t.resolved[|first.resolved| + i] == rest.resolved[i];
        } else {
          assert t.resolved[0] == first.resolved[0];
        }
      }
      forall i | 0 <= i < |t.resolved|
        ensures t.resolved[i].id in h.pending && t.resolved[i].id !in t.state.pending
      {
        if i >= |first.resolved| {
          assert t.resolved[i] == rest.resolved[i - |first.resolved|];
        }
      }
      forall i, j | 0 <= i < j < |t.resolved|
        ensures t.resolved[i].id != t.resolved[j].id
      {
        if j >= |first.resolved| {
          assert t.resolved[j] == rest.resolved[j - |first.resolved|];
          if i >= |first.resolved| {
            assert t.resolved[i] == rest.resolved[i - |first.resolved|];
          }
        }
      }
    }
  }

  /** One event resolves only requests that were pending before it, each at
      most once, and resolves every pending or newly issued request that it
      takes out of the table; it issues ids only upwards from `nextSeq`. */
  lemma StepRetires(h: Handler, parse: seq<byte> -> Option<Command>, e: Event)
    requires Valid(h)
    ensures RetiresFrom(h.pending, Step(h, parse, e))
    ensures NoLeak(h.pending, h.nextSeq, Step(h, parse, e))
    ensures h.nextSeq <= Step(h, parse, e).state.nextSeq
    ensures forall k :: k in Step(h, parse, e).state.pending ==> k in h.pending || h.nextSeq <= k
  {
    match e
    case ConnectEvent(connected) => ConnectRetires(h, connected);
    case DisConnectEvent(why) => DisConnectRetires(h, why);
    case AcceptedEvent(client) =>
    case ClosedEvent(client) => ClosedRetires(h, client);
    case TimerEvent(timer) => TimerRetires(h, timer);
    case DataEvent(client, chunk) => DataRetires(h, client, chunk, parse);
    case RequestEvent(op) => SubmitRetires(h, op);
    case ProbeEvent(host, hostType, connected) =>
  }

  /** The four facts `StepRetires` states about one transition. */
  ghost predicate Retires(h: Handler, t: Transition)
  {
    && RetiresFrom(h.pending, t)
    && NoLeak(h.pending, h.nextSeq, t)
    && h.nextSeq <= t.state.nextSeq
    && (forall k :: k in t.state.pending ==> k in h.pending || h.nextSeq <= k)
  }

  lemma DisConnectRetires(h: Handler, why: CloseReason)
    requires Valid(h)
    ensures Retires(h, DisConnect(h, why))
  {
  }

  lemma ConnectRetires(h: Handler, connected: bool)
    requires Valid(h)
    ensures Retires(h, Connect(h, connected))
  {
  }

  lemma SubmitRetires(h: Handler, op: Operation)
    requires Valid(h)
    ensures Retires(h, Submit(h, op))
  {
  }

  lemma TimerRetires(h: Handler, id: TimerId)
    requires Valid(h)
    ensures Retires(h, TimerEmited(h, id))
  {
    if IsConnected(h) && h.timer.value.id == id {
      if PingOutstanding(h) {
        DisConnectRetires(h, PingTimeout);
      } else {
        SubmitRetires(h, Ping);
      }
    }
  }

  lemma ClosedRetires(h: Handler, client: ClientId)
    requires Valid(h)
    ensures Retires(h, Closed(h, client))
  {
    if h.connection == Some(client) {
      DisConnectRetires(h, ClosedByPeer);
    }
  }

  lemma DataRetires(h: Handler, client: ClientId, chunk: seq<byte>, parse: seq<byte> -> Option<Command>)
    ensures Retires(h, DataReceived(h, client, chunk, parse))
  {
    if h.connection == Some(client) {
      var frames := InnerClient.Deframe(h.inbox + chunk);
      DispatchAllRetires(h.(inbox := frames.rest), Parsed(frames.payloads, parse));
    }
  }

  /** The requests a run resolves are pairwise distinct — no request is ever
      resolved twice, even when a late answer arrives — each was pending at
      the start or issued during the run, and none is still pending at the end. */
  ghost predicate ResolvesOnce(h: Handler, t: Transition)
  {
    && (forall i, j :: 0 <= i < j < |t.resolved| ==> t.resolved[i].id != t.resolved[j].id)
    && (forall i :: 0 <= i < |t.resolved| ==>
          && (t.resolved[i].id in h.pending || h.nextSeq <= t.resolved[i].id)
          && t.resolved[i].id !in t.state.pending
          && t.resolved[i].id < t.state.nextSeq)
  }

  lemma {:induction false} RunResolvesOnce(h: Handler, parse: seq<byte> -> Option<Command>, events: seq<Event>)
    requires Valid(h)
    ensures ResolvesOnce(h, Run(h, parse, events))
    ensures NoLeak(h.pending, h.nextSeq, Run(h, parse, events))
    ensures h.nextSeq <= Run(h, parse, events).state.nextSeq
    ensures forall k :: k in Run(h, parse, events).state.pending ==> k in h.pending || h.nextSeq <= k
    decreases |events|
  {
    if |events| > 0 {
      var first := Step(h, parse, events[0]);
      StepRetires(h, parse, events[0]);
      StepKeepsValid(h, parse, events[0]);
      RunResolvesOnce(first.state, parse, events[1..]);
      ThenResolvesOnce(h, first, Run(first.state, parse, events[1..]));
      ThenNoLeak(h.pending, h.nextSeq, first, Run(first.state, parse, events[1..]));
    }
  }

  /** Gluing one step that retires pending requests to a run from the state
      it leaves keeps every request resolved at most once. */
  lemma ThenResolvesOnce(h: Handler, first: Transition, rest: Transition)
    requires forall k :: k in h.pending ==> k < h.nextSeq
    requires RetiresFrom(h.pending, first)
    requires h.nextSeq <= first.state.nextSeq
    requires forall k :: k in first.state.pending ==> k in h.pending || h.nextSeq <= k
    requires ResolvesOnce(first.state, rest)
    requires first.state.nextSeq <= rest.state.nextSeq
    requires forall k :: k in rest.state.pending ==> k in first.state.pending || first.state.nextSeq <= k
    ensures ResolvesOnce(h, Then(first, rest))
    ensures forall k :: k in rest.state.pending ==> k in h.pending || h.nextSeq <= k
  {
    var h1 := first.state;
    var t := Then(first, rest);
    var n := |first.resolved|;
    forall i | 0 <= i < |t.resolved|
      ensures && (t.resolved[i].id in h.pending || h.nextSeq <= t.resolved[i].id)
              && t.resolved[i].id !in t.state.pending
              && t.resolved[i].id < t.state.nextSeq
    {
      if i < n {
        assert t.resolved[i] == first.resolved[i];
      } else {
        assert t.resolved[i] == rest.resolved[i - n];
      }
    }
    forall i, j | 0 <= i < j < |t.resolved|
      ensures t.resolved[i].id != t.resolved[j].id
    {
      if j >= n {
        assert t.resolved[j] == rest.resolved[j - n];
        if i >= n {
          assert t.resolved[i] == rest.resolved[i - n];
        } else {
          assert t.resolved[i] == first.resolved[i];
        }
      } else {
        assert t.resolved[i] == first.resolved[i] && t.resolved[j] == first.resolved[j];
      }
    }
  }

  /** A step that loses no request, followed by a run that loses none from
      the state it leaves, loses none. */
  lemma ThenNoLeak(pending: map<SeqId, Pending>, from: SeqId, first: Transition, rest: Transition)
    requires forall k :: k in pending ==> k < from
    requires from <= first.state.nextSeq <= rest.state.nextSeq
    requires NoLeak(pending, from, first)
    requires NoLeak(first.state.pending, first.state.nextSeq, rest)
    ensures NoLeak(pending, from, Then(first, rest))
  {
    var h1 := first.state;
    var t := Then(first, rest);
    var n := |first.resolved|;
    assert t.state == rest.state && t.resolved == first.resolved + rest.resolved;
    forall k | (k in pending || from <= k < t.state.nextSeq) && k !in t.state.pending
      ensures exists i :: 0 <= i < |t.resolved| && t.resolved[i].id == k
    {
      if k in h1.pending || h1.nextSeq <= k {
        assert (k in h1.pending || h1.nextSeq <= k < rest.state.nextSeq) && k !in rest.state.pending;
        var i :| 0 <= i < |rest.resolved| && rest.resolved[i].id == k;
        assert t.resolved[n + i] == rest.resolved[i];
      } else {
        var i :| 0 <= i < |first.resolved| && first.resolved[i].id == k;
        assert t.resolved[i] == first.resolved[i];
      }
    }
  }

  // ---------------------------------------------------------------------
  // Chunk-boundary invariance of received data

  lemma ThenAssoc(x: Transition, y: Transition, z: Transition)
    ensures Then(x, Then(y, z)) == Then(Then(x, y), z)
  {
    Seqs.AppendAssoc(x.outbound, y.outbound, z.outbound);
    Seqs.AppendAssoc(x.resolved, y.resolved, z.resolved);
  }

  lemma {:induction false} DispatchAllAppend(h: Handler, a: seq<Command>, b: seq<Command>)
    ensures
      var first := DispatchAll(h, a);
      DispatchAll(h, a + b) == Then(first, DispatchAll(first.state, b))
    decreases |a|
  {
    if |a| == 0 {
      assert a + b == b;
      var t := DispatchAll(h, b);
      assert [] + t.outbound == t.outbound && [] + t.resolved == t.resolved;
    } else {
      var d := Dispatch(h, a[0]);
      assert (a + b)[0] == a[0];
      assert (a + b)[1..] == a[1..] + b;
      DispatchAllAppend(d.state, a[1..], b);
      var mid := DispatchAll(d.state, a[1..]);
      ThenAssoc(d, mid, DispatchAll(mid.state, b));
    }
  }

  /** Parsing is message by message: the commands of `a + b` are those of
      `a` followed by those of `b`. */
  lemma {:induction false} ParsedAppend(a: seq<seq<byte>>, b: seq<seq<byte>>, parse: seq<byte> -> Option<Command>)
    ensures Parsed(a + b, parse) == Parsed(a, parse) + Parsed(b, parse)
    decreases |a|
  {
    if |a| == 0 {
      assert a + b == b;
    } else {
      assert (a + b)[0] == a[0];
      assert (a + b)[1..] == a[1..] + b;
      ParsedAppend(a[1..], b, parse);
      if parse(a[0]).Some? {
        Seqs.AppendAssoc([parse(a[0]).value], Parsed(a[1..], parse), Parsed(b, parse));
      }
    }
  }

  /** Dispatching commands neither reads nor writes the receive buffer. */
  lemma {:induction false} DispatchAllIgnoresInbox(h: Handler, x: seq<byte>, cmds: seq<Command>)
    ensures
      var t := DispatchAll(h, cmds);
      DispatchAll(h.(inbox := x), cmds) == t.(state := t.state.(inbox := x))
    decreases |cmds|
  {
    if |cmds| > 0 {
      var d := Dispatch(h, cmds[0]);
      var dx := Dispatch(h.(inbox := x), cmds[0]);
      assert dx == d.(state := d.state.(inbox := x));
      DispatchAllIgnoresInbox(d.state, x, cmds[1..]);
    }
  }

  /** Bytes arriving on the inner connection in two reads `a` then `b` are
      handled exactly as if they had arrived in one read `a + b`: the same
      commands are sent and resolved, in the same order, ending in the same
      state. */
  lemma DataReceivedChunks(h: Handler, client: ClientId, a: seq<byte>, b: seq<byte>, parse: seq<byte> -> Option<Command>)
    requires h.connection == Some(client)
    ensures
      var first := DataReceived(h, client, a, parse);
      var second := DataReceived(first.state, client, b, parse);
      DataReceived(h, client, a + b, parse) == Then(first, second)
  {
    var f1 := InnerClient.Deframe(h.inbox + a);
    var f2 := InnerClient.Deframe(f1.rest + b);
    InnerClient.DeframeChunks(h.inbox + a, b);
    Seqs.AppendAssoc(h.inbox, a, b);
    ParsedAppend(f1.payloads, f2.payloads, parse);
    var p1 := Parsed(f1.payloads, parse);
    var p2 := Parsed(f2.payloads, parse);
    var base := h.(inbox := f2.rest);
    DispatchAllAppend(base, p1, p2);
    var first := DataReceived(h, client, a, parse);
    assert first == DispatchAll(h.(inbox := f1.rest), p1);
    DispatchAllIgnoresInbox(h.(inbox := f1.rest), f2.rest, p1);
    assert base == h.(inbox := f1.rest).(inbox := f2.rest);
    assert first.state.connection == Some(client) && first.state.inbox == f1.rest;
  }
}

=== FILE: inner_client.dfy ===
/** The inner-protocol wire codec of `InnerClient`: every message is a 4-byte
    unsigned length prefix (`protocoled_size_t`) followed by exactly that many
    payload bytes. The prefix is taken to be big-endian. Reads work on the
    bytes currently available and never return part of a message. */
module InnerClient {
  import opened Wrappers
  import opened BigEndian
  import Seqs

  /** sizeof(protocoled_size_t). */
  const HeaderSize: nat := 4

  /** The largest length a 4-byte unsigned prefix can state: 2^32 - 1. */
  const MaxPayloadSize: nat := 0xFFFF_FFFF

  datatype WriteError = PayloadTooLarge(size: nat)

  /** The stream held `available` bytes where `needed` were required. */
  datatype ReadError = ShortRead(needed: nat, available: nat)

  /** A value read from the front of a buffer, and the bytes after it. */
  datatype Read<T> = Read(value: T, rest: seq<byte>)

  /** The three `Write` overloads take a request, a response or an approve
      command; each is command text ready for the wire. */
  datatype WireCommand =
    | RequestText(text: seq<byte>)
    | ResponceText(text: seq<byte>)
    | ApproveText(text: seq<byte>)

  lemma HeaderCapacity()
    ensures Pow256(HeaderSize) == MaxPayloadSize + 1
  {
    assert Pow256(1) == 256;
    assert Pow256(2) == 65536;
    assert Pow256(3) == 16777216;
  }

  /** The length field stated in a complete header. */
  function DeclaredSize(header: seq<byte>): (n: nat)
    requires |header| == HeaderSize
    ensures n <= MaxPayloadSize
  {
    HeaderCapacity();
    Decode(header)
  }

  /** The frame for `data`: its length as a 4-byte prefix, then the data.
      A payload whose length does not fit the prefix is refused. */
  function WriteInner(data: seq<byte>): (r: Result<seq<byte>, WriteError>)
    ensures r.Failure? <==> |data| > MaxPayloadSize
    ensures r.Failure? ==> r.error == PayloadTooLarge(|data|)
    ensures r.Success? ==>
              && |r.value| == HeaderSize + |data|
              && DeclaredSize(r.value[..HeaderSize]) == |data|
              && r.value[HeaderSize..] == data
  {
    if |data| > MaxPayloadSize then Failure(PayloadTooLarge(|data|))
    else
      HeaderCapacity();
      var frame := Encode(|data|, HeaderSize) + data;
      assert frame[..HeaderSize] == Encode(|data|, HeaderSize);
      Success(frame)
  }

  /** Reads the 4-byte length prefix from the front of `buf`. */
  function ReadDataSize(buf: seq<byte>): (r: Result<Read<nat>, ReadError>)
    ensures r.Failure? <==> |buf| < HeaderSize
    ensures r.Failure? ==> r.error == ShortRead(HeaderSize, |buf|)
    ensures r.Success? ==>
              && r.value.value <= MaxPayloadSize
              && Encode(r.value.value, HeaderSize) == buf[..HeaderSize]
              && r.value.rest == buf[HeaderSize..]
  {
    if |buf| < HeaderSize then Failure(ShortRead(HeaderSize, |buf|))
    else
      EncodeDecode(buf[..HeaderSize]);
      Success(Read(DeclaredSize(buf[..HeaderSize]), buf[HeaderSize..]))
  }

  /** Reads exactly `size` bytes from the front of `buf`. */
  function ReadMessage(buf: seq<byte>, size: nat): (r: Result<Read<seq<byte>>, ReadError>)
    ensures r.Failure? <==> |buf| < size
    ensures r.Failure? ==> r.error == ShortRead(size, |buf|)
    ensures r.Success? ==> |r.value.value| == size && r.value.value + r.value.rest == buf
  {
    if |buf| < size then Failure(ShortRead(size, |buf|))
    else
      assert buf[..size] + buf[size..] == buf;
      Success(Read(buf[..size], buf[size..]))
  }

  /** Reads one whole message: the length prefix, then that many bytes. */
  function ReadCommand(buf: seq<byte>): (r: Result<Read<seq<byte>>, ReadError>)
    ensures r.Success? <==>
              |buf| >= HeaderSize && |buf| >= HeaderSize + DeclaredSize(buf[..HeaderSize])
    ensures r.Success? ==>
              && buf == buf[..HeaderSize] + r.value.value + r.value.rest
              && |r.value.value| == DeclaredSize(buf[..HeaderSize])
              && |r.value.rest| == |buf| - HeaderSize - |r.value.value|
  {
    match ReadDataSize(buf)
    case Failure(e) => Failure(e)
    case Success(Read(size, body)) =>
      EncodeDecode(buf[..HeaderSize]);
      match ReadMessage(body, size)
      case Failure(e) => Failure(e)
      case Success(m) =>
        assert buf == buf[..HeaderSize] + body;
        Success(m)
  }

  /** One of the three `Write` overloads; all of them frame the command text
      through `WriteInner`. */
  function Write(command: WireCommand): (r: Result<seq<byte>, WriteError>)
    ensures r.Failure? <==> |command.text| > MaxPayloadSize
    ensures r.Success? ==> ReadCommand(r.value) == Success(Read(command.text, []))
  {
    var r := WriteInner(command.text);
    if r.Success? then
      ReadCommandOfWrite(command.text, []);
      assert r.value + [] == r.value;
      r
    else r
  }

  /** The bytes following a complete message are untouched by reading it:
      `ReadCommand` over a frame followed by anything returns the payload and
      exactly the bytes after the frame. */
  lemma ReadCommandOfWrite(data: seq<byte>, tail: seq<byte>)
    requires WriteInner(data).Success?
    ensures ReadCommand(WriteInner(data).value + tail) == Success(Read(data, tail))
  {
    var frame := WriteInner(data).value;
    var buf := frame + tail;
    assert buf[..HeaderSize] == frame[..HeaderSize];
    assert buf[HeaderSize..] == data + tail;
    var r := ReadCommand(buf);
    assert r.value.value == buf[HeaderSize..][..|data|];
  }

  /** The length prefix of an encoded frame is the length that was written. */
  lemma ReadDataSizeOfWrite(data: seq<byte>, tail: seq<byte>)
    requires WriteInner(data).Success?
    ensures ReadDataSize(WriteInner(data).value + tail) == Success(Read(|data| as nat, data + tail))
  {
    var frame := WriteInner(data).value;
    assert (frame + tail)[..HeaderSize] == frame[..HeaderSize];
    assert (frame + tail)[HeaderSize..] == data + tail;
  }

  /** The converse of the round trip: whatever `ReadCommand` accepts is a
      frame `WriteInner` would produce for the payload it returned. */
  lemma WriteOfReadCommand(buf: seq<byte>)
    requires ReadCommand(buf).Success?
    ensures
      var m := ReadCommand(buf).value;
      WriteInner(m.value) == Success(buf[..|buf| - |m.rest|])
  {
    var m := ReadCommand(buf).value;
    var frame := buf[..|buf| - |m.rest|];
    assert frame == buf[..HeaderSize] + m.value;
    var w := WriteInner(m.value).value;
    assert w[..HeaderSize] == frame[..HeaderSize] by {
      DecodeInjective(w[..HeaderSize], buf[..HeaderSize]);
    }
    assert w == w[..HeaderSize] + w[HeaderSize..];
  }

  /** No partial result: every proper prefix of a frame is rejected, so a
      message split across reads is only returned once it is complete. */
  lemma ReadCommandOfPrefix(data: seq<byte>, cut: nat)
    requires WriteInner(data).Success?
    requires cut < |WriteInner(data).value|
    ensures ReadCommand(WriteInner(data).value[..cut]).Failure?
  {
    var frame := WriteInner(data).value;
    var part := frame[..cut];
    if cut >= HeaderSize {
      assert part[..HeaderSize] == frame[..HeaderSize];
    }
  }

  /** Two frames sent back to back are read back in the order written, and
      the second read ends exactly at the end of the second frame. */
  lemma TwoFramesInOrder(a: seq<byte>, b: seq<byte>, tail: seq<byte>)
    requires WriteInner(a).Success? && WriteInner(b).Success?
    ensures
      var first := ReadCommand(WriteInner(a).value + WriteInner(b).value + tail);
      && first == Success(Read(a, WriteInner(b).value + tail))
      && ReadCommand(first.value.rest) == Success(Read(b, tail))
  {
    var fa := WriteInner(a).value;
    var fb := WriteInner(b).value;
    assert fa + fb + tail == fa + (fb + tail);
    ReadCommandOfWrite(a, fb + tail);
    ReadCommandOfWrite(b, tail);
  }

  /** Reading a message depends only on the bytes of that message: more bytes
      arriving behind a complete message do not change what is read, only
      what is left over. */
  lemma ReadCommandExtends(buf: seq<byte>, more: seq<byte>)
    requires ReadCommand(buf).Success?
    ensures
      var m := ReadCommand(buf).value;
      ReadCommand(buf + more) == Success(Read(m.value, m.rest + more))
  {
    var m := ReadCommand(buf).value;
    WriteOfReadCommand(buf);
    var frame := buf[..|buf| - |m.rest|];
    assert buf == frame + m.rest;
    assert buf + more == WriteInner(m.value).value + (m.rest + more);
    ReadCommandOfWrite(m.value, m.rest + more);
  }

  /** The messages at the front of a buffer, and the incomplete tail behind them. */
  datatype Frames = Frames(payloads: seq<seq<byte>>, rest: seq<byte>)

  /** Reads messages with `ReadCommand` until it reports a short buffer. */
  function Deframe(buf: seq<byte>): (f: Frames)
    ensures ReadCommand(f.rest).Failure?
    ensures |f.rest| <= |buf|
    decreases |buf|
  {
    match ReadCommand(buf)
    case Failure(_) => Frames([], buf)
    case Success(Read(m, rest)) =>
      var f := Deframe(rest);
      Frames([m] + f.payloads, f.rest)
  }

  /** The bytes of a list of frames written one after another. */
  function Concat(payloads: seq<seq<byte>>): (bytes: seq<byte>)
    requires forall i :: 0 <= i < |payloads| ==> |payloads[i]| <= MaxPayloadSize
  {
    if |payloads| == 0 then []
    else WriteInner(payloads[0]).value + Concat(payloads[1..])
  }

  /** Reading loses no byte: the buffer is exactly the frames of the
      messages read, written back, followed by the tail left unread. */
  lemma {:induction false} DeframeSplits(buf: seq<byte>)
    ensures forall i :: 0 <= i < |Deframe(buf).payloads| ==> |Deframe(buf).payloads[i]| <= MaxPayloadSize
    ensures buf == Concat(Deframe(buf).payloads) + Deframe(buf).rest
    decreases |buf|
  {
    if ReadCommand(buf).Success? {
      var m := ReadCommand(buf).value;
      var inner := Deframe(m.rest);
      DeframeSplits(m.rest);
      WriteOfReadCommand(buf);
      var f := Deframe(buf);
      assert f.payloads == [m.value] + inner.payloads;
      assert f.payloads[0] == m.value && f.payloads[1..] == inner.payloads;
      assert Concat(f.payloads) == WriteInner(m.value).value + Concat(inner.payloads);
      Seqs.AppendAssoc(WriteInner(m.value).value, Concat(inner.payloads), inner.rest);
    }
  }

  /** Writing any list of payloads and reading the bytes back yields the same
      list, in order, with nothing left over. */
  lemma {:induction false} DeframeConcat(payloads: seq<seq<byte>>)
    requires forall i :: 0 <= i < |payloads| ==> |payloads[i]| <= MaxPayloadSize
    ensures Deframe(Concat(payloads)) == Frames(payloads, [])
  {
    if |payloads| > 0 {
      var bytes := Concat(payloads);
      ReadCommandOfWrite(payloads[0], Concat(payloads[1..]));
      assert ReadCommand(bytes) == Success(Read(payloads[0], Concat(payloads[1..])));
      DeframeConcat(payloads[1..]);
      assert Deframe(bytes) == Frames([payloads[0]] + payloads[1..], []);
      assert [payloads[0]] + payloads[1..] == payloads;
    }
  }

  /** Chunk-boundary invariance: reading what is complete after `a` arrives
      and then, from the leftover, what is complete after `b` arrives gives
      the same messages, in the same order, as reading `a + b` at once. */
  lemma {:induction false} DeframeChunks(a: seq<byte>, b: seq<byte>)
    ensures
      var first := Deframe(a);
      var second := Deframe(first.rest + b);
      Deframe(a + b) == Frames(first.payloads + second.payloads, second.rest)
    decreases |a|, 1
  {
    if ReadCommand(a).Success? {
      DeframeChunksStep(a, b);
    } else {
      var first := Deframe(a);
      var whole := Deframe(a + b);
      assert first.payloads == [] && first.rest == a;
      assert Deframe(first.rest + b) == whole;
      assert first.payloads + whole.payloads == whole.payloads;
    }
  }

  /** The case of `DeframeChunks` where `a` starts with a complete message. */
  lemma {:induction false} DeframeChunksStep(a: seq<byte>, b: seq<byte>)
    requires ReadCommand(a).Success?
    ensures
      var first := Deframe(a);
      var second := Deframe(first.rest + b);
      Deframe(a + b) == Frames(first.payloads + second.payloads, second.rest)
    decreases |a|, 0
  {
    var m := ReadCommand(a).value.value;
    var rest := ReadCommand(a).value.rest;
    var inner := Deframe(rest);
    var second := Deframe(inner.rest + b);
    ReadCommandExtends(a, b);
    assert Deframe(a + b) == Frames([m] + Deframe(rest + b).payloads, Deframe(rest + b).rest);
    DeframeChunks(rest, b);
    assert Deframe(a) == Frames([m] + inner.payloads, inner.rest);
    Seqs.AppendAssoc([m], inner.payloads, second.payloads);
  }
}

=== FILE: inner_tcp_handler.dfy ===
/** The client's `InnerTcpHandler`: it owns at most one inner connection, the
    30-second ping timer of that connection, the pool of bandwidth-probe
    clients and the table of requests still waiting for an answer, and it
    routes every command received on the inner connection to the request,
    response or approve handler.

    Event-loop objects (clients, timers) are opaque numbers handed out from
    `nextHandle`, so a newly created one never equals a live one. Socket
    outcomes (did the connect succeed?) are parameters. Messages the handler
    sends are returned in `outbound` instead of being written. */
module InnerTcpHandler {
  import opened Wrappers
  import opened BigEndian
  import opened Commands
  import InnerClient
  import Seqs

  type ClientId = nat
  type TimerId = nat

  /** `ping_timeout_server`: the ping period, in seconds. */
  const PingTimeoutServer: nat := 30

  datatype HostAndPort = HostAndPort(host: string, port: nat)

  /** Login credentials, kept as their serialized form. */
  datatype AuthInfo = AuthInfo(credentials: string)

  /** Where the inner server is and how to log in; fixed at construction. */
  datatype StartConfig = StartConfig(innerHost: HostAndPort, auth: AuthInfo)

  /** The kind of server a bandwidth probe measures. client/types.h is not
      part of this model, so the kind is kept as its numeric value. */
  datatype BandwidthHostType = BandwidthHostType(code: int)

  /** One `TcpBandwidthClient` of `bandwidth_requests_`. */
  datatype Probe = Probe(client: ClientId, host: HostAndPort, hostType: BandwidthHostType)

  datatype PingTimer = PingTimer(id: TimerId, periodSeconds: nat)

  /** A request sent and not yet resolved; `answer` holds the payload of a
      successful response while the request still waits for its approve. */
  datatype Pending = Pending(op: Operation, answer: Option<seq<string>>)

  datatype Handler = Handler(
    config: StartConfig,
    connection: Option<ClientId>,
    timer: Option<PingTimer>,
    probes: seq<Probe>,
    pending: map<SeqId, Pending>,
    nextSeq: SeqId,
    nextHandle: nat,
    inbox: seq<byte>)

  /** Why the inner connection was dropped (the `common::Error` of `DisConnect`). */
  datatype CloseReason = ClosedByPeer | PingTimeout | Reconnect | Requested(message: string)

  datatype Outcome = Succeeded(payload: seq<string>) | Failed(reason: seq<string>) | Cancelled(why: CloseReason)

  /** The final answer delivered for the request with sequence id `id`. */
  datatype Resolution = Resolution(id: SeqId, op: Operation, outcome: Outcome)

  /** A command the handler writes to the inner connection. */
  datatype Outgoing =
    | SendRequest(id: SeqId, op: Operation)
    | SendResponce(id: SeqId, request: seq<string>)

  datatype HandlerError = NotConnected | ConnectFailed | ProbeConnectFailed

  /** The effect of one event: the new state, the commands written, the
      requests resolved (in order) and the error reported to the caller. */
  datatype Transition = Transition(
    state: Handler,
    outbound: seq<Outgoing>,
    resolved: seq<Resolution>,
    error: Option<HandlerError>)

  predicate HasProbe(probes: seq<Probe>, c: ClientId)
  {
    exists i :: 0 <= i < |probes| && probes[i].client == c
  }

  ghost predicate ProbesDistinct(probes: seq<Probe>)
  {
    forall i, j :: 0 <= i < j < |probes| ==> probes[i].client != probes[j].client
  }

  /** The inner connection has been accepted and its ping timer runs. */
  predicate IsConnected(h: Handler)
  {
    h.connection.Some? && h.timer.Some?
  }

  /** The handler invariant:
      - the ping timer exists only while an inner connection exists, with
        the 30-second period;
      - requests are pending only while connected, under ids already issued;
      - every live client id was handed out, the probe ids are distinct and
        the inner connection is not a probe. */
  ghost predicate Valid(h: Handler)
  {
    && (h.timer.Some? ==>
          && h.connection.Some?
          && h.timer.value.periodSeconds == PingTimeoutServer
          && h.timer.value.id < h.nextHandle)
    && (h.connection.Some? ==>
          h.connection.value < h.nextHandle && !HasProbe(h.probes, h.connection.value))
    && (h.connection.None? ==> h.inbox == [])
    && (h.timer.None? ==> h.pending == map[])
    && (forall k :: k in h.pending ==> k < h.nextSeq)
    && (forall i :: 0 <= i < |h.probes| ==> h.probes[i].client < h.nextHandle)
    && ProbesDistinct(h.probes)
  }

  function Quiet(h: Handler): (t: Transition)
  {
    Transition(h, [], [], None)
  }

  /** The constructor: nothing connected, nothing pending. */
  function Init(config: StartConfig): (h: Handler)
    ensures Valid(h)
    ensures h.config == config && h.connection.None? && h.timer.None?
    ensures h.probes == [] && h.pending == map[]
  {
    Handler(config, None, None, [], map[], 0, 0, [])
  }

  // ---------------------------------------------------------------------
  // Connection lifecycle

  /** Resolves, in increasing id order, every pending request with an id
      below `upTo` as cancelled for `why`. */
  function CancelAll(pending: map<SeqId, Pending>, upTo: nat, why: CloseReason): (rs: seq<Resolution>)
    ensures forall i :: 0 <= i < |rs| ==>
              && rs[i].id < upTo
              && rs[i].id in pending
              && rs[i] == Resolution(rs[i].id, pending[rs[i].id].op, Cancelled(why))
    ensures forall i, j :: 0 <= i < j < |rs| ==> rs[i].id < rs[j].id
    ensures forall k :: k in pending && k < upTo ==> exists i :: 0 <= i < |rs| && rs[i].id == k
  {
    if upTo == 0 then []
    else
      var earlier := CancelAll(pending, upTo - 1, why);
      var k := upTo - 1;
      var rs := if k in pending then earlier + [Resolution(k, pending[k].op, Cancelled(why))] else earlier;
      CancelNext(pending, k, why, earlier, rs);
      rs
  }

  /** One step of `CancelAll`: cancelling id `k`, when pending, after the
      cancellations of the ids below it. */
  lemma CancelNext(pending: map<SeqId, Pending>, k: nat, why: CloseReason, earlier: seq<Resolution>, rs: seq<Resolution>)
    requires forall i :: 0 <= i < |earlier| ==>
               && earlier[i].id < k
               && earlier[i].id in pending
               && earlier[i] == Resolution(earlier[i].id, pending[earlier[i].id].op, Cancelled(why))
    requires forall i, j :: 0 <= i < j < |earlier| ==> earlier[i].id < earlier[j].id
    requires forall m :: m in pending && m < k ==> exists i :: 0 <= i < |earlier| && earlier[i].id == m
    requires rs == if k in pending then earlier + [Resolution(k, pending[k].op, Cancelled(why))] else earlier
    ensures forall i :: 0 <= i < |rs| ==>
              && rs[i].id < k + 1
              && rs[i].id in pending
              && rs[i] == Resolution(rs[i].id, pending[rs[i].id].op, Cancelled(why))
    ensures forall i, j :: 0 <= i < j < |rs| ==> rs[i].id < rs[j].id
    ensures forall m :: m in pending && m < k + 1 ==> exists i :: 0 <= i < |rs| && rs[i].id == m
  {
    if k in pending {
      assert rs[|earlier|].id == k;
      assert forall i :: 0 <= i < |earlier| ==> rs[i] == earlier[i];
    }
  }

  /** `DisConnect(err)`: drops the inner connection and its timer, and
      cancels every pending request exactly once. Probes, configuration and
      the id counters are kept. */
  function DisConnect(h: Handler, why: CloseReason): (t: Transition)
    ensures t.state.connection.None? && t.state.timer.None? && t.state.pending == map[]
    ensures t.state.inbox == []
    ensures t.state.probes == h.probes && t.state.config == h.config
    ensures t.state.nextSeq == h.nextSeq && t.state.nextHandle == h.nextHandle
    ensures t.outbound == [] && t.error.None?
    ensures forall i :: 0 <= i < |t.resolved| ==>
              && t.resolved[i].id in h.pending
              && t.resolved[i].op == h.pending[t.resolved[i].id].op
              && t.resolved[i].outcome == Cancelled(why)
    ensures forall i, j :: 0 <= i < j < |t.resolved| ==> t.resolved[i].id < t.resolved[j].id
    ensures Valid(h) ==>
              forall k :: k in h.pending ==> exists i :: 0 <= i < |t.resolved| && t.resolved[i].id == k
  {
    var s := h.(connection := None, timer := None, pending := map[], inbox := []);
    Transition(s, [], CancelAll(h.pending, h.nextSeq, why), None)
  }

  /** `Connect`: drops any current inner connection, then opens a new one
      towards the configured host; `connected` is whether the socket
      connect succeeded. The new connection waits for `Accepted`. */
  function Connect(h: Handler, connected: bool): (t: Transition)
    ensures t.state.timer.None? && t.state.pending == map[] && t.state.inbox == []
    ensures t.state == h.(connection := t.state.connection, timer := None, pending := map[],
                          inbox := [], nextHandle := t.state.nextHandle)
    ensures h.nextHandle <= t.state.nextHandle
    ensures connected ==> t.state.connection.Some? && h.nextHandle <= t.state.connection.value < t.state.nextHandle
    ensures t.state.probes == h.probes && t.state.config == h.config
    ensures connected ==>
              && t.state.connection.Some?
              && t.error.None?
              && (Valid(h) ==> t.state.connection != h.connection)
    ensures !connected ==> t.state.connection.None? && t.error == Some(ConnectFailed)
    ensures t.state.nextSeq == h.nextSeq && t.outbound == []
    ensures forall i :: 0 <= i < |t.resolved| ==>
              && t.resolved[i].id in h.pending
              && t.resolved[i].op == h.pending[t.resolved[i].id].op
              && t.resolved[i].outcome == Cancelled(Reconnect)
    ensures forall i, j :: 0 <= i < j < |t.resolved| ==> t.resolved[i].id < t.resolved[j].id
    ensures Valid(h) ==>
              forall k :: k in h.pending ==> exists i :: 0 <= i < |t.resolved| && t.resolved[i].id == k
    ensures Valid(h) ==> Valid(t.state)
  {
    var d := DisConnect(h, Reconnect);
    if connected then
      var c := d.state.nextHandle;
      var s := d.state.(connection := Some(c), nextHandle := c + 1);
      Transition(s, [], d.resolved, None)
    else
      Transition(d.state, [], d.resolved, Some(ConnectFailed))
  }

  /** `Accepted`: the inner connection is established, so its ping timer
      starts with the 30-second period. Any other client changes nothing. */
  function Accepted(h: Handler, client: ClientId): (t: Transition)
    ensures h.connection == Some(client) && h.timer.None? ==>
              && t.state.timer.Some?
              && t.state.timer.value.periodSeconds == PingTimeoutServer
              && h.nextHandle <= t.state.timer.value.id < t.state.nextHandle
              && t.state == h.(timer := t.state.timer, nextHandle := t.state.nextHandle)
    ensures !(h.connection == Some(client) && h.timer.None?) ==> t.state == h
    ensures t.outbound == [] && t.resolved == [] && t.error.None?
  {
    if h.connection == Some(client) && h.timer.None? then
      Quiet(h.(timer := Some(PingTimer(h.nextHandle, PingTimeoutServer)), nextHandle := h.nextHandle + 1))
    else Quiet(h)
  }

  // ---------------------------------------------------------------------
  // Bandwidth probes

  /** The probes other than the one with client id `c`, in their order. */
  function RemoveProbe(probes: seq<Probe>, c: ClientId): (r: seq<Probe>)
    ensures !HasProbe(r, c)
    ensures forall p :: p in probes && p.client != c ==> p in r
    ensures forall p :: p in r ==> p in probes
    ensures |r| <= |probes|
  {
    if |probes| == 0 then []
    else if probes[0].client == c then RemoveProbe(probes[1..], c)
    else
      var r := [probes[0]] + RemoveProbe(probes[1..], c);
      assert forall p :: p in probes ==> p == probes[0] || p in probes[1..];
      r
  }

  /** The probes `RemoveProbe` keeps stay in their vector order, as erasing
      from a `std::vector` leaves them. */
  lemma {:induction false} RemoveProbeKeepsOrder(probes: seq<Probe>, c: ClientId)
    ensures Seqs.Subsequence(RemoveProbe(probes, c), probes)
    decreases |probes|
  {
    if |probes| > 0 {
      var rest := RemoveProbe(probes[1..], c);
      RemoveProbeKeepsOrder(probes[1..], c);
      if probes[0].client == c {
        assert |rest| > 0 ==> rest[0].client != c;
      } else {
        var r := [probes[0]] + rest;
        assert r[0] == probes[0] && r[1..] == rest;
      }
    }
  }

  /** `CreateAndConnectTcpBandwidthClient`: opens a probe connection to
      `host`; `connected` is whether the socket connect succeeded. A new
      probe is appended to the pool; a failure reports an error and changes
      nothing. The inner connection is never touched. */
  function CreateAndConnectTcpBandwidthClient(
    h: Handler, host: HostAndPort, hostType: BandwidthHostType, connected: bool
  ): (r: (Handler, Result<ClientId, HandlerError>))
    ensures connected ==>
              && r.1.Success?
              && r.0 == h.(probes := h.probes + [Probe(r.1.value, host, hostType)], nextHandle := r.0.nextHandle)
              && h.nextHandle <= r.1.value < r.0.nextHandle
              && (Valid(h) ==> !HasProbe(h.probes, r.1.value) && Some(r.1.value) != h.connection)
    ensures !connected ==> r == (h, Failure(ProbeConnectFailed))
    ensures Valid(h) ==> Valid(r.0)
  {
    if connected then
      var c := h.nextHandle;
      var s := h.(probes := h.probes + [Probe(c, host, hostType)], nextHandle := c + 1);
      (s, Success(c))
    else (h, Failure(ProbeConnectFailed))
  }

  /** `Closed`: a client went away. The inner connection's closure drops it
      as `DisConnect` does; a probe's closure removes that probe and leaves
      the inner connection alone; an unknown client changes nothing. */
  function Closed(h: Handler, client: ClientId): (t: Transition)
    ensures h.connection == Some(client) ==> t == DisConnect(h, ClosedByPeer)
    ensures h.connection != Some(client) ==>
              && t.state == h.(probes := t.state.probes)
              && t.outbound == [] && t.resolved == [] && t.error.None?
              && !HasProbe(t.state.probes, client)
              && (forall p :: p in h.probes && p.client != client ==> p in t.state.probes)
              && (forall p :: p in t.state.probes ==> p in h.probes)
  {
    if h.connection == Some(client) then DisConnect(h, ClosedByPeer)
    else if HasProbe(h.probes, client) then Quiet(h.(probes := RemoveProbe(h.probes, client)))
    else Quiet(h)
  }

  /** Whatever client closes, the probes left keep their order. */
  lemma ClosedKeepsProbeOrder(h: Handler, client: ClientId)
    ensures Seqs.Subsequence(Closed(h, client).state.probes, h.probes)
  {
    if h.connection != Some(client) && HasProbe(h.probes, client) {
      RemoveProbeKeepsOrder(h.probes, client);
    } else {
      Seqs.SubsequenceOfSelf(h.probes);
    }
  }

  // ---------------------------------------------------------------------
  // Requests

  /** Sends a request for `op` under the next sequence id and records it as
      pending; refused with `NotConnected` unless connected. */
  function Submit(h: Handler, op: Operation): (t: Transition)
    ensures !IsConnected(h) ==> t == Transition(h, [], [], Some(NotConnected))
    ensures IsConnected(h) ==>
              && t.outbound == [SendRequest(h.nextSeq, op)]
              && t.resolved == [] && t.error.None?
              && t.state == h.(pending := t.state.pending, nextSeq := h.nextSeq + 1)
              && t.state.pending == h.pending[h.nextSeq := Pending(op, None)]
              && (Valid(h) ==> h.nextSeq !in h.pending)
  {
    if !IsConnected(h) then Transition(h, [], [], Some(NotConnected))
    else
      var id := h.nextSeq;
      var s := h.(pending := h.pending[id := Pending(op, None)], nextSeq := id + 1);
      Transition(s, [SendRequest(id, op)], [], None)
  }

  /** The effect of asking for `op`: without a live connection nothing
      changes and the caller gets `NotConnected`; otherwise exactly one
      request for `op` goes out under the next sequence id, it is recorded as
      pending with no answer yet, and the id counter moves past it. */
  predicate RequestSent(h: Handler, op: Operation, t: Transition)
  {
    && (!IsConnected(h) ==>
          t.state == h && t.outbound == [] && t.resolved == [] && t.error == Some(NotConnected))
    && (IsConnected(h) ==>
          && t.outbound == [SendRequest(h.nextSeq, op)]
          && t.resolved == [] && t.error.None?
          && t.state == h.(pending := h.pending[h.nextSeq := Pending(op, None)], nextSeq := h.nextSeq + 1))
  }

  /** `RequestServerInfo`: asks the server for its information. */
  function RequestServerInfo(h: Handler): (t: Transition)
    ensures RequestSent(h, ServerInfo, t)
  {
    Submit(h, ServerInfo)
  }

  /** `RequestChannels`: asks the server for the channel list. */
  function RequestChannels(h: Handler): (t: Transition)
    ensures RequestSent(h, Channels, t)
  {
    Submit(h, Channels)
  }

  /** `RequesRuntimeChannelInfo`: asks for the live state of stream `sid`. */
  function RequesRuntimeChannelInfo(h: Handler, sid: StreamId): (t: Transition)
    ensures RequestSent(h, RuntimeChannelInfo(sid), t)
  {
    Submit(h, RuntimeChannelInfo(sid))
  }

  /** `PostMessageToChat`: posts `message`; the post waits for an approve. */
  function PostMessageToChat(h: Handler, message: ChatMessage): (t: Transition)
    ensures RequestSent(h, PostChatMessage(message), t)
    ensures IsConnected(h) ==> RequiresApprove(t.state.pending[h.nextSeq].op)
  {
    Submit(h, PostChatMessage(message))
  }

  /** A ping sent earlier is still unanswered. */
  predicate PingOutstanding(h: Handler)
  {
    exists k :: k in h.pending && h.pending[k].op.Ping?
  }

  /** `TimerEmited`: when the ping timer of the live connection fires, the
      connection is dropped if the previous ping is still unanswered, and a
      new ping is sent otherwise. Any other timer changes nothing. */
  function TimerEmited(h: Handler, id: TimerId): (t: Transition)
    ensures !(IsConnected(h) && h.timer.value.id == id) ==> t == Quiet(h)
    ensures IsConnected(h) && h.timer.value.id == id && PingOutstanding(h) ==>
              t == DisConnect(h, PingTimeout)
    ensures IsConnected(h) && h.timer.value.id == id && !PingOutstanding(h) ==>
              && RequestSent(h, Ping, t)
              && PingOutstanding(t.state)
  {
    if IsConnected(h) && h.timer.value.id == id then
      if PingOutstanding(h) then DisConnect(h, PingTimeout)
      else
        var t := Submit(h, Ping);
        assert t.state.pending[h.nextSeq].op.Ping?;
        t
    else Quiet(h)
  }

  // ---------------------------------------------------------------------
  // Command dispatch

  /** A request from the server is answered with one response under the
      same sequence id. */
  function HandleInnerRequestCommand(h: Handler, id: SeqId, args: seq<string>): (t: Transition)
    ensures t.state == h && t.outbound == [SendResponce(id, args)] && t.resolved == []
  {
    Transition(h, [SendResponce(id, args)], [], None)
  }

  /** The success path: the pending request `id` gets its answer. A request
      that needs an approve keeps waiting, holding the answer; any other is
      resolved as succeeded and leaves the table. Unknown ids are dropped. */
  function HandleInnerSuccsessResponceCommand(h: Handler, id: SeqId, payload: seq<string>): (t: Transition)
    ensures t.outbound == [] && t.error.None? && t.state == h.(pending := t.state.pending)
    ensures id !in h.pending ==> t.state == h && t.resolved == []
    ensures id in h.pending ==>
              var p := h.pending[id];
              if RequiresApprove(p.op) && p.answer.None? then
                t.resolved == [] && t.state.pending == h.pending[id := Pending(p.op, Some(payload))]
              else
                t.resolved == [Resolution(id, p.op, Succeeded(payload))]
                && t.state.pending == h.pending - {id}
  {
    if id !in h.pending then Quiet(h)
    else
      var p := h.pending[id];
      if RequiresApprove(p.op) && p.answer.None? then
        Quiet(h.(pending := h.pending[id := p.(answer := Some(payload))]))
      else
        Transition(h.(pending := h.pending - {id}), [], [Resolution(id, p.op, Succeeded(payload))], None)
  }

  /** The failed path: the pending request `id` is resolved as failed and
      leaves the table. Unknown ids are dropped. */
  function HandleInnerFailedResponceCommand(h: Handler, id: SeqId, args: seq<string>): (t: Transition)
    ensures t.outbound == [] && t.error.None? && t.state == h.(pending := t.state.pending)
    ensures id !in h.pending ==> t.state == h && t.resolved == []
    ensures id in h.pending ==>
              && t.resolved == [Resolution(id, h.pending[id].op, Failed(args))]
              && t.state.pending == h.pending - {id}
  {
    if id !in h.pending then Quiet(h)
    else
      Transition(h.(pending := h.pending - {id}), [], [Resolution(id, h.pending[id].op, Failed(args))], None)
  }

  /** A response goes to exactly one of the success and failed paths. */
  function HandleInnerResponceCommand(h: Handler, id: SeqId, args: seq<string>): (t: Transition)
    ensures t.outbound == [] && t.error.None? && t.state == h.(pending := t.state.pending)
    ensures id !in h.pending ==> t.state == h && t.resolved == []
    ensures forall i :: 0 <= i < |t.resolved| ==>
              && t.resolved[i].id == id
              && (t.resolved[i].outcome.Succeeded? <==> IsSuccessResponce(args))
              && (t.resolved[i].outcome.Succeeded? ==> t.resolved[i].outcome.payload == args[1..])
              && (t.resolved[i].outcome.Failed? ==> t.resolved[i].outcome.reason == args)
    ensures id in h.pending && !IsSuccessResponce(args) ==> |t.resolved| == 1
    ensures id in h.pending && IsSuccessResponce(args) ==>
              var p := h.pending[id];
              if RequiresApprove(p.op) && p.answer.None? then
                t.resolved == [] && t.state.pending == h.pending[id := Pending(p.op, Some(args[1..]))]
              else
                |t.resolved| == 1 && t.state.pending == h.pending - {id}
    ensures IsSuccessResponce(args) ==> t == HandleInnerSuccsessResponceCommand(h, id, args[1..])
    ensures !IsSuccessResponce(args) ==> t == HandleInnerFailedResponceCommand(h, id, args)
  {
    if IsSuccessResponce(args) then HandleInnerSuccsessResponceCommand(h, id, args[1..])
    else HandleInnerFailedResponceCommand(h, id, args)
  }

  /** An approve closes the pending request `id`, delivering the answer
      its response carried. Unknown ids are dropped. */
  function HandleInnerApproveCommand(h: Handler, id: SeqId, args: seq<string>): (t: Transition)
    ensures t.outbound == [] && t.error.None? && t.state == h.(pending := t.state.pending)
    ensures id !in h.pending ==> t.state == h && t.resolved == []
    ensures id in h.pending ==>
              && t.state.pending == h.pending - {id}
              && t.resolved == [Resolution(id, h.pending[id].op, Succeeded(AnswerOf(h.pending[id])))]
  {
    if id !in h.pending then Quiet(h)
    else
      var p := h.pending[id];
      Transition(h.(pending := h.pending - {id}), [], [Resolution(id, p.op, Succeeded(AnswerOf(p)))], None)
  }

  function AnswerOf(p: Pending): (answer: seq<string>)
  {
    if p.answer.Some? then p.answer.value else []
  }

  /** Routes a received command to the request, response or approve handler
      by its phase, passing its sequence id unchanged. */
  function Dispatch(h: Handler, c: Command): (t: Transition)
    ensures t.error.None? && t.state == h.(pending := t.state.pending)
    ensures c.kind == Request ==>
              t.state == h && t.outbound == [SendResponce(c.id, c.args)] && t.resolved == []
    ensures c.kind != Request ==> t.outbound == [] && |t.resolved| <= 1
    ensures c.kind != Request && c.id !in h.pending ==> t.state == h && t.resolved == []
    ensures forall i :: 0 <= i < |t.resolved| ==>
              && t.resolved[i].id == c.id
              && c.id in h.pending
              && t.resolved[i].op == h.pending[c.id].op
              && c.id !in t.state.pending
    ensures c.kind == Response && |t.resolved| == 1 ==>
              (t.resolved[0].outcome.Failed? <==> !IsSuccessResponce(c.args))
    ensures forall k :: k != c.id ==>
              && (k in t.state.pending <==> k in h.pending)
              && (k in h.pending ==> t.state.pending[k] == h.pending[k])
    ensures t.state.pending.Keys <= h.pending.Keys
    ensures c.kind == Response ==> t == HandleInnerResponceCommand(h, c.id, c.args)
    ensures c.kind == Approve ==> t == HandleInnerApproveCommand(h, c.id, c.args)
    ensures c.kind == Approve && c.id in h.pending ==> |t.resolved| == 1 && c.id !in t.state.pending
    ensures c.id in h.pending && c.id !in t.state.pending ==> |t.resolved| == 1
  {
    match c.kind
    case Request => HandleInnerRequestCommand(h, c.id, c.args)
    case Response => HandleInnerResponceCommand(h, c.id, c.args)
    case Approve => HandleInnerApproveCommand(h, c.id, c.args)
  }

  // ---------------------------------------------------------------------
  // Received data

  /** Runs `t2` after `t1`: the state of `t2`, the outputs of both in order. */
  function Then(t1: Transition, t2: Transition): (t: Transition)
  {
    Transition(t2.state, t1.outbound + t2.outbound, t1.resolved + t2.resolved,
               if t2.error.Some? then t2.error else t1.error)
  }

  /** Dispatches `cmds` one after another. */
  function DispatchAll(h: Handler, cmds: seq<Command>): (t: Transition)
    ensures |cmds| == 0 ==> t == Quiet(h)
    ensures |cmds| == 1 ==> t == Dispatch(h, cmds[0])
    ensures t.error.None?
    ensures t.state == h.(pending := t.state.pending)
    ensures t.state.pending.Keys <= h.pending.Keys
    decreases |cmds|
  {
    if |cmds| == 0 then Quiet(h)
    else
      var first := Dispatch(h, cmds[0]);
      var t := Then(first, DispatchAll(first.state, cmds[1..]));
      assert |cmds| == 1 ==> first.outbound + [] == first.outbound && first.resolved + [] == first.resolved;
      t
  }

  /** The commands of `payloads` that parse; a malformed one is dropped
      without affecting the others. */
  function Parsed(payloads: seq<seq<byte>>, parse: seq<byte> -> Option<Command>): (cmds: seq<Command>)
    ensures |cmds| <= |payloads|
    ensures |payloads| == 0 ==> cmds == []
    ensures |payloads| == 1 ==>
              cmds == (if parse(payloads[0]).Some? then [parse(payloads[0]).value] else [])
  {
    if |payloads| == 0 then []
    else
      var rest := Parsed(payloads[1..], parse);
      match parse(payloads[0])
      case Some(c) => [c] + rest
      case None => rest
  }

  /** `DataReceived`: bytes `chunk` arrived on `client`. On the inner
      connection they join the bytes kept from earlier reads, every complete
      message is read with `ReadCommand`, parsed with `parse` and dispatched
      in arrival order, and the incomplete tail is kept for the next read.
      Data on any other client changes nothing here. */
  function DataReceived(h: Handler, client: ClientId, chunk: seq<byte>, parse: seq<byte> -> Option<Command>): (t: Transition)
    ensures h.connection != Some(client) ==> t == Quiet(h)
    ensures h.connection == Some(client) ==>
              && t.state == h.(pending := t.state.pending, inbox := t.state.inbox)
              && t.state.pending.Keys <= h.pending.Keys
    ensures h.connection == Some(client) && InnerClient.ReadCommand(h.inbox + chunk).Failure? ==>
              t == Quiet(h.(inbox := h.inbox + chunk))
  {
    if h.connection == Some(client) then
      var frames := InnerClient.Deframe(h.inbox + chunk);
      DispatchAll(h.(inbox := frames.rest), Parsed(frames.payloads, parse))
    else Quiet(h)
  }

  /** What an inner connection leaves buffered after a read is the unread
      tail of everything received so far, and never holds a whole frame. */
  lemma {:induction false} DataReceivedKeepsTail(h: Handler, client: ClientId, chunk: seq<byte>, parse: seq<byte> -> Option<Command>)
    requires h.connection == Some(client)
    ensures var t := DataReceived(h, client, chunk, parse);
      && InnerClient.ReadCommand(t.state.inbox).Failure?
      && |t.state.inbox| <= |h.inbox| + |chunk|
      && t.state.inbox == (h.inbox + chunk)[|h.inbox| + |chunk| - |t.state.inbox|..]
  {
    var buf := h.inbox + chunk;
    var frames := InnerClient.Deframe(buf);
    InnerClient.DeframeSplits(buf);
    assert buf == InnerClient.Concat(frames.payloads) + frames.rest;
    assert buf[|buf| - |frames.rest|..] == frames.rest;
  }

  /** Data that is exactly a run of whole frames, arriving on an inner
      connection with nothing buffered, is dispatched as the commands those
      frames parse to, in order, and leaves nothing buffered. */
  lemma {:induction false} DataReceivedOfFrames(h: Handler, client: ClientId, payloads: seq<seq<byte>>, parse: seq<byte> -> Option<Command>)
    requires h.connection == Some(client) && h.inbox == []
    requires forall i :: 0 <= i < |payloads| ==> |payloads[i]| <= InnerClient.MaxPayloadSize
    ensures DataReceived(h, client, InnerClient.Concat(payloads), parse) == DispatchAll(h, Parsed(payloads, parse))
    ensures DataReceived(h, client, InnerClient.Concat(payloads), parse).state.inbox == []
  {
    var bytes := InnerClient.Concat(payloads);
    InnerClient.DeframeConcat(payloads);
    assert h.inbox + bytes == bytes;
    assert h.(inbox := []) == h;
  }

  /** One whole frame arriving on an inner connection with nothing buffered
      is dispatched as the command it parses to. */
  lemma {:induction false} DataReceivedOfOneFrame(h: Handler, client: ClientId, p: seq<byte>, c: Command, parse: seq<byte> -> Option<Command>)
    requires h.connection == Some(client) && h.inbox == []
    requires |p| <= InnerClient.MaxPayloadSize && parse(p) == Some(c)
    ensures DataReceived(h, client, InnerClient.WriteInner(p).value, parse) == Dispatch(h, c)
  {
    DataReceivedOfFrames(h, client, [p], parse);
    assert [p][1..] == [];
    assert InnerClient.Concat([p]) == InnerClient.WriteInner(p).value + [];
    assert InnerClient.WriteInner(p).value + [] == InnerClient.WriteInner(p).value;
  }
}

=== FILE: responce_info.dfy ===
/** `ResponceInfo`: the server's record of an answered request, four text
    fields with getters and value equality. */
module ResponceInfo {

  datatype ResponceInfo = ResponceInfo(
    requestId: string,
    state: string,
    command: string,
    responceJson: string)

  function GetRequestId(r: ResponceInfo): (v: string)
  {
    r.requestId
  }

  function GetState(r: ResponceInfo): (v: string)
  {
    r.state
  }

  function GetCommand(r: ResponceInfo): (v: string)
  {
    r.command
  }

  function GetResponceJson(r: ResponceInfo): (v: string)
  {
    r.responceJson
  }

  /** The default constructor: every field empty. */
  function Default(): (r: ResponceInfo)
    ensures GetRequestId(r) == "" && GetState(r) == ""
    ensures GetCommand(r) == "" && GetResponceJson(r) == ""
  {
    ResponceInfo("", "", "", "")
  }

  /** The four-argument constructor; each getter returns its argument. */
  function Make(requestId: string, stateCommand: string, command: string, responce: string): (r: ResponceInfo)
    ensures GetRequestId(r) == requestId
    ensures GetState(r) == stateCommand
    ensures GetCommand(r) == command
    ensures GetResponceJson(r) == responce
  {
    ResponceInfo(requestId, stateCommand, command, responce)
  }

  /** Field-by-field comparison; it holds exactly for equal records. */
  function Equals(r: ResponceInfo, inf: ResponceInfo): (b: bool)
    ensures b <==> r == inf
  {
    && GetRequestId(r) == GetRequestId(inf)
    && GetState(r) == GetState(inf)
    && GetCommand(r) == GetCommand(inf)
    && GetResponceJson(r) == GetResponceJson(inf)
  }

  /** `operator==`, defined through `Equals`; it is symmetric. */
  function Eq(lhs: ResponceInfo, rhs: ResponceInfo): (b: bool)
    ensures b <==> lhs == rhs
    ensures b == Equals(rhs, lhs)
  {
    Equals(lhs, rhs)
  }

  /** `operator!=`, the negation of `operator==`: the records differ in at
      least one field. */
  function Ne(x: ResponceInfo, y: ResponceInfo): (b: bool)
    ensures b <==> x != y
    ensures b <==> || GetRequestId(x) != GetRequestId(y)
                   || GetState(x) != GetState(y)
                   || GetCommand(x) != GetCommand(y)
                   || GetResponceJson(x) != GetResponceJson(y)
  {
    !Eq(x, y)
  }

  /** The record holds exactly the four fields: rebuilding it from its
      getters gives it back, and records built from the same arguments
      compare equal while records built from different ones do not. */
  lemma FourFieldsDetermineRecord(r: ResponceInfo, a: string, b: string, c: string, d: string, a': string, b': string, c': string, d': string)
    ensures Make(GetRequestId(r), GetState(r), GetCommand(r), GetResponceJson(r)) == r
    ensures Eq(Make(a, b, c, d), Make(a', b', c', d')) <==> a == a' && b == b' && c == c' && d == d'
  {
  }
}

=== FILE: seqs.dfy ===
/** Facts about sequences that the protocol modules share. */
module Seqs {

  lemma AppendAssoc<T>(x: seq<T>, y: seq<T>, z: seq<T>)
    ensures x + (y + z) == (x + y) + z
  {
  }

  /** `r` is `s` with some elements left out, the others in their order. */
  ghost predicate Subsequence<T>(r: seq<T>, s: seq<T>)
    decreases |s|
  {
    || |r| == 0
    || (&& |s| > 0
        && if r[0] == s[0] then Subsequence(r[1..], s[1..]) else Subsequence(r, s[1..]))
  }

  lemma {:induction false} SubsequenceOfSelf<T>(s: seq<T>)
    ensures Subsequence(s, s)
    decreases |s|
  {
    if |s| > 0 {
      SubsequenceOfSelf(s[1..]);
    }
  }
}

=== FILE: wrappers.dfy ===
/** Failure-carrying return values used throughout the model: `Option` for a
    pointer that may be null, `Result` for an operation that returns
    `common::Error` alongside its value. */
module Wrappers {

  datatype Option<+T> = None | Some(value: T)

  datatype Result<+R, +E> = Success(value: R) | Failure(error: E)
}
